=== FILE: README.md ===
# maga-player core in Dafny

A model of the sequential core of the maga-player episode player. The
player plays the frames of an episode from a list of shots. Each shot belongs
to a department (`reparto`, such as `animazione` or `render`) and names a
frame-path template with a `####` placeholder and a frame range. The model
covers four parts.

- **Playlist building.** `play_with_cache` expands the shots into an ordered
  list of frame paths and refuses an empty list or an out-of-range start
  index.
- **Prefetch cache.** `ImageCache` is a bounded FIFO. A producer fills it
  with the images that load, and the playback loop takes them out.
- **Playback loop.** The bookkeeping of `play_with_cache`: the frame index,
  the stop check, pause accounting, pacing against a clock, the ten-entry
  rate window, the `on_frame` callbacks and the session average.
- **Window state.** The handlers of `PlayerGUI` as pure transitions on a
  record of its flags, resume index, current shot and command queue.

Modules, one per file:

| file | module | what it holds |
|---|---|---|
| wrappers.dfy | `Wrappers` | `Option` and `Result` |
| numbers.dfy | `Numbers` | `Min` and `Max` |
| decimal.dfy | `Decimal` | Python's `str(int)` and `str.zfill`, and a parser to state the round trip |
| template.dfy | `Template` | Python's `str.replace`, with split/join as an independent definition |
| shots.dfy | `Shots` | `Shot`, frame counts, filtering by department, and the derived `absolute_start` |
| resolver.dfy | `Resolver` | path expansion and the start guard |
| image_cache.dfy | `ImageCache` | the prefetch cache as a state machine: `Produce`, `Get`, `Stop` |
| playback.dfy | `Playback` | the `play_with_cache` loop as a method over an environment |
| player_gui.dfy | `PlayerGui` | the window state and its handlers |

The model makes the following choices.

- **`absolute_start`.** `Shot` never assigns `absolute_start`, yet the window
  and the shot-list test read it. The model derives it as the window's
  selection handler computes its global index (gui.py:254-258): the sum of
  `end - start + 1` over the shots of the current department listed before
  the first shot with the same id. An id with no match in the department
  sums the whole department.
- **Time.** Time is an integer tick count. The frame duration `1/fps` is a
  parameter `frameTicks`. Rates are exact ratios `Rate(frames, elapsed)`
  rather than floats.
- **The environment.** It supplies one `Tick` per pass of the loop:
  - the value of `stop_flag()`;
  - the length of a pause;
  - the time that passes before the pacing check and before the timestamp;
  - how many producer steps run before `get_image`, or, on the pass that
    ends the loop, before `cache.stop()`.
- **Threads.** The producer thread and the loop run as one interleaving. The
  producer advances by `Produce` steps before each `get_image` and again
  after the loop's last pass, before `cache.stop()`. Nothing else in the loop
  touches the cache, so these are all the interleavings that matter. A
  `stop()` whose join never returns is the outcome `Hung`: the call to
  `play_with_cache` never returns and no average is computed.
- **Which `stop()`.** `PlayWithCache` takes a `StopVariant`: the `stop()` as
  written, or the corrected one of the first finding below.
- **Negative start indices.** They follow Python. The cache holds
  `frame_paths[start_index:]` with a negative slice start, and the loop ends
  with `IndexFault` when `all_paths[i]` would raise (`i < -total`). The stop
  check comes first, so a stop requested at once ends such a run cleanly.
- **The command queue.** It is `None` until the play button first creates
  it, because every other handler tests `hasattr(self, "command_q")`.

## Model

| member | source | states |
|---|---|---|
| Decimal.NatToString | player_core.py:91 | `str(n)` of a natural is non-empty, all digits, and has no leading zero unless it is `0` |
| Decimal.IntToString | player_core.py:91 | `str(n)` is all digits for `n >= 0` and a minus sign followed by digits for `n < 0` |
| Decimal.ZFill | player_core.py:91 | `zfill(width)` has length `max(len, width)` and leaves a string that is already wide enough unchanged |
| Decimal.FrameNumberText | player_core.py:91 | the padded frame number is at least 4 characters and exactly 4 for frames 0 to 9999, all digits for a non-negative frame, with a sign in front otherwise |
| Decimal.SpellingWidth | player_core.py:91 | a number below `10^d` is spelled with at most `d` digits |
| Decimal.FrameNumberTextRoundTrip | player_core.py:91 | reading the padded text as an integer gives back the frame number, so padding never loses or changes a digit |
| Decimal.FrameNumberTextKeepsDigits | player_core.py:91 | the padded text of a non-negative frame is zeros followed by all of `str(n)`, never truncated |
| Decimal.FrameNumberTextOneDigit | player_core.py:91 | a one-digit frame number gets three leading zeros |
| Decimal.FrameNumberTextExamples | player_core.py:91 | 7 becomes `0007`, 2 becomes `0002`, 12345 stays `12345`, and -5 becomes `-005` |
| Decimal.ParseNatToString | player_core.py:91 | `str(n)` read back as a number is `n` |
| Template.Replace | player_core.py:92 | a replacement as long as the placeholder keeps the template's length |
| Template.Split | player_core.py:92 | splitting on the placeholder gives at least one piece |
| Template.ReplaceIsJoinOfSplit | player_core.py:92 | `replace` equals splitting on the placeholder and joining with the replacement, left to right and non-overlapping |
| Template.JoinSplitRoundTrip | player_core.py:92 | joining the pieces back with the placeholder gives the original template |
| Template.SplitPiecesFree | player_core.py:92 | no piece between placeholders contains the placeholder, so every occurrence is replaced |
| Template.SplitHeadIsPrefix | player_core.py:92 | the text before the first placeholder is a prefix of the template |
| Template.SinglePlaceholder | player_core.py:92 | a template with one placeholder and no other `#` becomes prefix, replacement, suffix |
| Template.NoPlaceholder | player_core.py:92 | a template without `#` is returned unchanged |
| Template.ReplaceSkipsPlainText | player_core.py:92 | text free of the placeholder's first character passes through `replace` untouched |
| Shots.WellFormedCountIsSpan | player_core.py:90 | for `start <= end` the number of frames of `range(start, end + 1)` is `end - start + 1` |
| Shots.TotalFramesAppend | player_core.py:88-95 | the frame count of two shot lists played one after the other is the sum of their counts |
| Shots.SpanSumIsTotal | player_core.py:88-95 | for well-formed shots the sum of `end - start + 1` is the number of frames |
| Shots.InReparto | gui.py:241 | the department filter keeps exactly the shots of the department, none from elsewhere |
| Shots.InRepartoAppend | gui.py:300-302 | filtering commutes with concatenation, so the filter keeps the original order |
| Shots.InRepartoSingle | gui.py:300-302 | a single shot is kept exactly when its department matches |
| Shots.GlobalIndexIsPrefixSum | gui.py:254-258 | the global start of the first shot with a given id is the sum of the lengths of the shots before it |
| Shots.GlobalIndexOfMissing | gui.py:254-258 | an id that is not in the list sums the whole list |
| Shots.GlobalIndexInRange | gui.py:254-258 | over well-formed shots the global index lies in `0..total`, and below the total when some shot carries the id |
| Shots.AbsoluteStartInEpisode | gui.py:254-258 | a loaded shot of the current department starts inside that department's episode |
| Shots.SampleAbsoluteStarts | tests/test_parse_shot_list.py:34-37 | shots of lengths 3 and 2 start at 0 and 3, and the episode has 5 frames |
| Resolver.FramePath | player_core.py:90-92 | a frame from 0 to 9999 fills exactly the four places of the placeholder, so the path keeps the template's length |
| Resolver.FramePathOneDigit | player_core.py:90-92 | a one-digit frame in a template with one placeholder becomes prefix, `000`, the digit, suffix |
| Resolver.ExpandPaths | player_core.py:88-93 | the expanded path list has one path per frame of every shot |
| Resolver.ExpandPathsAppend | player_core.py:89-93 | the paths of two shot lists are the paths of the first followed by the paths of the second, so the list is ordered by shot |
| Resolver.ExpandPathsAt | player_core.py:89-93 | global index `offset(k) + j` holds frame `start + j` of shot `k`, rendered into that shot's template |
| Resolver.Locate | player_core.py:89-93 | every index of the playlist is frame `start + j` of some shot `k`, at `offset(k) + j` |
| Resolver.ResolveFramePaths | player_core.py:88-95 | the nested loop builds exactly the expansion: right length, right path at each index |
| Resolver.PrepareSession | player_core.py:82-98 | an empty shot list and `start_index >= total` are refused with their own reasons; otherwise the returned playlist is exactly the expansion of the shots, and the start index is below its length |
| Resolver.SamplePlaylist | player_core.py:88-95 | the sample shots give 5 paths, index 4 being frame 2 of the second shot |
| Resolver.SampleFramePath | player_core.py:91-92 | frame 2 of `a/s2.####.png` is `a/s2.0002.png` |
| ImageCache.SliceFrom | player_core.py:51 | Python's `s[k:]` for any `k`, negative included: its length and that it is a suffix of `s` |
| ImageCache.Init | player_core.py:50-55 | a new cache has `frame_paths[start_index:]` pending, nothing queued, the given bound, and a producer that has not started |
| ImageCache.InitHoldsRemainingPaths | player_core.py:50-55 | a new cache holds exactly `frame_paths[start_index:]`, an empty queue, and satisfies the cache invariant |
| ImageCache.Produce | player_core.py:57-67 | a producer step takes at most the path in hand, queues at most its image behind those already queued, never passes the bound, and a returned producer stays returned |
| ImageCache.LoadedPrefix | player_core.py:58-67 | the loads of a prefix of the paths are a prefix of the loads of all paths |
| ImageCache.TakenArePrefix | player_core.py:58-73 | under the invariant, the images handed out so far are the first successful loads, in path order |
| ImageCache.QueuedArePrefix | player_core.py:58-73 | the images handed out followed by those still queued are likewise the first successful loads |
| ImageCache.ProduceKeepsInv | player_core.py:57-67 | one producer step keeps the invariant: successful loads are queued in path order, failed loads skipped, the bound respected |
| ImageCache.ProduceNKeepsInv | player_core.py:57-67 | any number of producer steps keep the invariant |
| ImageCache.Get | player_core.py:69-73 | `get_image` returns the oldest queued image and removes it, or `None` and no change when the queue is empty |
| ImageCache.GetKeepsInv | player_core.py:69-73 | taking an image keeps the invariant, with that image appended to those taken |
| ImageCache.NoPathAfterStop | player_core.py:58-60 | once the stop event is set, the producer processes no further path and finishes |
| ImageCache.Join | player_core.py:77 | the join keeps every queued image; when it returns the producer has finished, and when it hangs the producer holds a path and the queue is full |
| ImageCache.Stop | player_core.py:75-77 | `stop()` sets the event and keeps every queued image; when it returns the producer has finished, and when it hangs the producer holds a path and the queue is full |
| ImageCache.StopHangsIff | player_core.py:61-62 | `stop()` as written hangs exactly when the producer has a path in hand and the queue is full |
| ImageCache.StopCanHang | player_core.py:75-77 | a concrete full cache whose `stop()` never returns |
| ImageCache.StopHangsAfterGet | player_core.py:57-77 | the hang is reachable after the consumer has taken a frame: three frames, a bound of one, the producer running two steps, one `get_image`, three more steps, then `stop()` never returns |
| ImageCache.StopChecked | player_core.py:75-77 | the corrected stop always finishes the producer, loading at most the path in hand |
| ImageCache.StopCheckedAgrees | player_core.py:75-77 | where the written `stop()` returns, the corrected stop gives the same cache |
| ImageCache.StopCheckedIdempotent | player_core.py:75-77 | stopping twice is stopping once |
| ImageCache.StopCheckedKeepsInv | player_core.py:75-77 | the corrected stop keeps the cache invariant |
| ImageCache.StopWith | player_core.py:75-77 | ending with the written `stop()` hangs exactly on a producer with a path in hand and a full queue; the corrected one never hangs; whichever returns leaves the producer finished |
| Playback.WindowRate | player_core.py:170-174 | a window of fewer than two timestamps has no rate; otherwise the rate is its number of intervals over the time from its oldest to its newest timestamp |
| Playback.AverageRate | player_core.py:185-188 | no average for at most one timestamp; otherwise the number of intervals over the time from the first to the last timestamp less the time paused |
| Playback.WindowSnoc | player_core.py:165-168 | appending a timestamp and dropping the oldest past ten gives the last ten timestamps |
| Playback.CallsFor | player_core.py:176-177 | there is one `on_frame` call per recorded pass |
| Playback.CallsForAt | player_core.py:170-177 | call `k` reports index `start + k + 1` and the rate of the window ending at timestamp `k` |
| Playback.RateOnlyFromSecondFrame | player_core.py:170-174 | the rate is 0 for the first call of a run and measured for every later one |
| Playback.OrderedPairwise | player_core.py:164-165 | timestamps taken in order never go backwards |
| Playback.StampsSnoc | player_core.py:144-165 | a timestamp taken after the pacing target keeps the timestamps ordered and no frame early |
| Playback.PullFrame | player_core.py:151 | the producer steps and `get_image` keep the cache invariant, and at most one image is shown, appended to those shown |
| Playback.Pace | player_core.py:126-148 | pause accounting moves the anchor and the total pause by the same amount, and the pacing sleep reaches the frame's scheduled time |
| Playback.Window10 | player_core.py:164-177 | the live window stays the last ten timestamps and at most ten long, and the calls gain one for the new pass |
| Playback.Stamp | player_core.py:164-177 | recording a pass appends its timestamp and its `on_frame(i + 1, total, _)` call |
| Playback.TimedSummary | player_core.py:117-177 | the loop's bookkeeping gives the call list, ordered timestamps, and no frame before its pause-shifted schedule |
| Playback.Pass | player_core.py:121-179 | one pass keeps the bookkeeping and the cache invariant and records one timestamp |
| Playback.OpenCache | player_core.py:100 | the cache opened for the run satisfies the cache invariant over `all_paths[start_index:]` with nothing taken |
| Playback.Turn | player_core.py:121-179 | one turn at an index below the total ends the loop on a stop request without a pass, faults with nothing recorded when the index is below `-total` and no stop was requested (the stop check comes first), and otherwise completes one pass and moves to the next index |
| Playback.PassesFrom | player_core.py:121-179 | the turns from an index on end at the total, at the first stop request, or on the index fault (only at the first turn, with no stop requested), keeping the bookkeeping and the cache invariant |
| Playback.Passes | player_core.py:114-179 | the loop visits `start, start+1, …` and ends at the total, at the first pass whose stop check holds, or on the index fault (nothing shown, start below `-total`, no stop requested at the first check), keeping the bookkeeping and the cache invariant |
| Playback.StopAfterLoop | player_core.py:181 | the producer steps after the last pass keep the cache invariant, and the stop's outcome is that of the chosen `stop()` on the resulting cache |
| Playback.RunPasses | player_core.py:114-181 | the loop, then `cache.stop()` unless the loop faulted (which needs a start below `-total` and no stop request at the first check); the written `stop()` hangs exactly when the producer holds a path and the queue is full, and a stop that returns leaves the producer finished with every queued image kept |
| Playback.PlayWithCache | player_core.py:80-193 | the whole run: refusals before anything starts; one call per visited index with `(i + 1, total)`; the stop rule; the ten-entry rate; ordered, paced timestamps; `start - pause` stays at `t0 - start_index * frame`; the average (none for at most one timestamp, and none when `stop()` hangs); images shown are the loaded ones in order; the cache is stopped unless the loop faulted, which happens only with nothing shown, a start below `-total` and no stop requested at the first check; and the written `stop()` hangs exactly when the producer holds a path and the queue is full |
| PlayerGui.Put | gui.py:263-264 | enqueuing appends the commands after the existing contents, and only when a queue exists |
| PlayerGui.ShotSelected | gui.py:240-279 | a row outside the list changes nothing; in episode mode a click seeks to the shot's global start; in scene mode it makes the shot current, resets the index, and enqueues trim then seek |
| PlayerGui.StartIsOffset | gui.py:254-258 | the global start of the first shot with an id is its offset in the expanded playlist |
| PlayerGui.SelectionSeeksToShotStart | gui.py:254-264 | the episode-mode seek lands on the clicked shot's first frame path in the playlist that play builds |
| PlayerGui.SelectionTrimsToShot | gui.py:266-275 | the scene-mode trim range has as many indices as the shot has frames and runs from its first path to its last |
| PlayerGui.FrameMapAt | gui.py:304-307 | the frame map has one entry per playlist path, and entry `offset(k) + j` is frame `start + j` of shot `k` |
| PlayerGui.FrameMap | gui.py:304-306 | the frame map has one entry per frame of the played shots, which is the episode length |
| PlayerGui.HandlePlay | gui.py:281-393 | a queue exists afterwards and keeps its contents; a run is requested exactly for a fresh start with shots loaded (and a current shot in scene mode); while playing only the pause flag is cleared; a refused start only creates the queue; a fresh start writes nothing but the episode frame map and its total, the lowered stop flag and the queue, which gets trim-off, or trim then seek; the start index and audio offset agree |
| PlayerGui.PlayUsesDepartmentShots | tests/test_gui_handle_play_filtered.py:102-105 | in episode mode play uses exactly the department's shots in order, and the episode length is the sum of their lengths |
| PlayerGui.SampleMixedDepartments | gui.py:298-307 | with animation, render, animation shots loaded, play requests the two animation shots and 5 frames |
| PlayerGui.HandleLoopToggle | gui.py:395-436 | loop is negated, and the new value is enqueued when a queue exists |
| PlayerGui.LoopToggleTwice | gui.py:396 | pressing loop twice restores the flag, and the core is told both values in order |
| PlayerGui.HandleStop | gui.py:438-476 | stop clears pause and playing and resets the index, and leaves the stop flag as it was |
| PlayerGui.HandleStopRequestingHalt | gui.py:438-466 | the corrected stop also raises the stop flag the running loop polls |
| PlayerGui.HandlePause | gui.py:478-480 | pause is set exactly when playing, and nothing else changes |
| PlayerGui.PlayAfterPause | gui.py:289-292 | play while paused requests nothing and clears the pause, leaving the window as if pause had not been pressed |
| PlayerGui.Initial | gui.py:15-31 | a new window is idle (not playing, no stop or pause asked) with no command queue, an empty catalogue in episode mode, resume index 0, and the frame counter at 0 of a positive total (set at gui.py:182-183) |
| PlayerGui.SecondPlayRequestsNothing | gui.py:289-292 | once the thread has started (gui.py:341-343), play requests no second run; after stop (gui.py:438-466), play requests a run exactly when shots are loaded and, in scene mode, a shot is current |
| PlayerGui.ThreadEntry | gui.py:341-343 | the playback thread marks the window playing and lowers the stop and pause flags |
| PlayerGui.FrameShown | gui.py:331-332 | the frame callback stores the reported index as the resume index |
| PlayerGui.ResumeFollowsRun | gui.py:331-332 | after a run from `start` that reported `n` frames, the window resumes at `start + n` |
| PlayerGui.NoHandlerRaisesStopFlag | gui.py:338-479 | with the stop button as written, no sequence of window events raises `should_stop`, so the loop's stop check never fires for a run the window starts |
| PlayerGui.StopHoldsUntilRestart | gui.py:438-466 | with the corrected stop button, a press of stop leaves `should_stop` raised until the next run is started, whatever else is pressed |
| PlayerGui.StopFlagStaysUp | gui.py:240-526 | no event other than starting a run lowers a raised `should_stop` |
| PlayerGui.StopAfterPlayLeavesRunGoing | gui.py:438-466 | after play then stop, the written stop leaves the flag down and the corrected stop raises it |
| PlayerGui.ShotAtFrom | gui.py:488-491 | the search returns the first shot whose span holds the index, or none when no span does |
| PlayerGui.ShotAt | gui.py:488-491 | the loaded shot found is the first whose span holds the index, and none is found exactly when no loaded shot's span holds it |
| PlayerGui.LocalIndex | gui.py:497-505 | the clamped local index lies in `0..end-start`, and is exactly `idx - absolute_start` when the shot spans `idx` |
| PlayerGui.ToggleEpisodeMode | gui.py:483-526 | the mode flips; to scene, the first spanning shot becomes current and the index becomes a clamped local one; to episode, the local index gains the shot's start; the queue gets trim-off, or trim then seek; nothing else in the window changes |
| PlayerGui.ToScene | gui.py:485-526 | from episode mode: the first loaded shot spanning the resume index becomes current (the old one stays when none does), the index becomes its clamped local index, and the queue gets trim to the shot then seek; without a shot nothing but the mode changes |
| PlayerGui.ToEpisode | gui.py:485-526 | from scene mode: the current shot stays, its local index gains the shot's absolute start, and the queue gets trim-off; nothing else changes |
| PlayerGui.EpisodeSceneEpisode | gui.py:494-505 | episode to scene and back, from an index inside some shot's span, restores the global index |
| PlayerGui.SceneEpisodeScene | gui.py:494-505 | scene to episode and back, on a catalogue, restores the current shot and the local index |
| PlayerGui.ShotAtFindsOwnShot | gui.py:488-491 | in a catalogue, the search finds the very shot whose span holds the index |
| PlayerGui.CatalogueStartsGrow | gui.py:254-258 | in a catalogue each shot's span ends before the next shot's starts |
| PlayerGui.SampleToggle | tests/test_gui_toggle_mode.py:33-40 | index 4 switches to shot s2 at local index 1, and switching back gives 4 |
| PlayerGui.NoQueueBeforeFirstPlay | gui.py:263-264 | before the first play no handler enqueues anything, as there is no queue |
| PlayerGui.UpdateFrameCounter | gui.py:196-199 | the counter goes up by one or wraps to 0, and stays within `0..total` |
| PlayerGui.CounterPeriod | gui.py:196-199 | from 0 the counter comes back to 0 after `total + 1` ticks |
| PlayerGui.TicksCountUp | gui.py:196-199 | ticks within the total count straight up |

## Left out

- Qt widgets, styling, the slider, the frame-counter and FPS labels, and the
  `QImage`/`QPixmap` conversion. These are UI only.
- Threads, `time.sleep`, `threading.Event` and `join`, and the join timeouts.
  The producer and the loop run as one interleaving chosen by the
  environment. The sleeps become the pacing property on the abstract clock.
- Image decoding (`cv2.imread`). It is an opaque `load` function returning
  `Option`.
- The pygame audio calls. These are no-ops.
- The one-second timeout of `get_image`. It is an empty queue after the
  producer steps the environment allows.
- Floating-point FPS. Rates are kept as exact ratios. A zero elapsed time,
  which is a `ZeroDivisionError` in the source, and the underrun warning are
  not modelled.
- Shot-list parsing from CSV and `None` frame numbers from empty CSV cells.
  This is file I/O, and `None` ranges cannot be played anyway.
- `toggle_reparto`, `populate_shot_list` and `open_csv_dialog`. These are
  outside the modelled core.
- The `playback_loop` thread body past its first three assignments, in
  particular the loop-restart `while`. Its call to `play_with_cache` passes
  `audio_offset_frames` and `command_q`, which `play_with_cache` does not
  accept. The call fails at once, so `ThreadEntry` is all the thread does to
  the window. The seek, trim and loop commands are modelled only as queue
  contents, because no code consumes them.
- Clearing the command queue on play or stop. The window's code never clears
  it, and the model follows that code.
- Debug logging and the `print` messages.
- Playback.PlayWithCache: on the index fault, the model records nothing and
  leaves the cache running, with no `prefetch` outcome. The source raises
  `IndexError` there, after the pause and pacing of that pass, and never
  reaches `cache.stop()`.
- Playback.PlayWithCache: `frameTicks` is a natural number, so `fps == 0`
  and a negative `fps` are not modelled. In the source `fps == 0` raises
  `ZeroDivisionError` at player_core.py:86, after the empty-list guard and
  before the start guard, and a negative `fps` gives a negative frame
  duration. The window's FPS spinner only offers 1 to 60 (gui.py:139).
- Playback.PlayWithCache: `on_frame`, `stop_flag` and `pause_flag` are
  always supplied. A missing callback only skips the call or the check.
- PlayerGui.HandleStop: the `AttributeError` that scene mode without a
  current shot raises while it writes the counter label comes after every
  state update, so it is not modelled.

## Findings

| source | as written | input that shows it | evidently intended | confidence | as-written member | corrected member |
|---|---|---|---|---|---|---|
| player_core.py:61-62 | the producer waits for room in a full queue without polling `stop_event`, so `stop()` (player_core.py:75-77) joins a thread that never ends once the consumer has stopped taking images | three frames and `max_cache_size=1`: the producer queues frame 1, the loop takes it, the producer queues frame 2 and waits to put frame 3, and the loop ends (stop requested) and calls `stop()` | the producer gives up once the stop event is set, so `stop()` always returns | medium, not executed | ImageCache.StopHangsAfterGet | ImageCache.StopChecked |
| gui.py:438-466 | the stop button clears `is_playing` and `should_pause` but never sets `should_stop`, the flag `play_with_cache` polls (gui.py:353). Clearing `is_playing` only ends the thread's restart loop (gui.py:345). A `play_with_cache` that accepts the window's arguments, as the tests' stubs do, would play on to the end of the episode; the one in player_core.py rejects them, as noted under Left out | play on any loaded episode, then stop: `should_stop` stays false | stop raises `should_stop` so the loop ends at its next pass, as the handler's own description says | medium, not executed | PlayerGui.StopAfterPlayLeavesRunGoing | PlayerGui.HandleStopRequestingHalt |

=== FILE: decimal.dfy ===
/** Python's `str(int)` and `str.zfill`, as used to spell frame numbers,
    together with an independent parser that reads such a spelling back. */
module Decimal {

  predicate IsDigit(c: char) {
    '0' <= c <= '9'
  }

  /** The character of a decimal digit. */
  function DigitChar(d: int): (c: char)
    requires 0 <= d < 10
    ensures IsDigit(c)
  {
    (48 + d) as char
  }

  /** The value of a decimal digit character. */
  function DigitValue(c: char): (d: int)
    requires IsDigit(c)
    ensures 0 <= d < 10
  {
    c as int - 48
  }

  predicate AllDigits(s: string) {
    forall k :: 0 <= k < |s| ==> IsDigit(s[k])
  }

  /** `str(n)` for a non-negative integer: the shortest decimal spelling. */
  function NatToString(n: nat): (s: string)
    ensures 1 <= |s|
    ensures AllDigits(s)
    ensures n > 0 ==> s[0] != '0'
  {
    if n < 10 then [DigitChar(n)] else NatToString(n / 10) + [DigitChar(n % 10)]
  }

  /** `10^d`. */
  function Pow10(d: nat): nat {
    if d == 0 then 1 else 10 * Pow10(d - 1)
  }

  /** A number below `10^d` is spelled with at most `d` digits. */
  lemma {:induction false} SpellingWidth(n: nat, d: nat)
    requires 0 < d && n < Pow10(d)
    ensures |NatToString(n)| <= d
  {
    if n >= 10 {
      assert d > 1;
      SpellingWidth(n / 10, d - 1);
    }
  }

  /** `str(n)` for any integer: a minus sign in front of negative numbers. */
  function IntToString(n: int): (s: string)
    ensures 1 <= |s|
    ensures n >= 0 ==> AllDigits(s)
    ensures n < 0 ==> s[0] == '-' && AllDigits(s[1..])
  {
    if n < 0 then "-" + NatToString(-n) else NatToString(n)
  }

  function Zeros(n: nat): (s: string)
    ensures |s| == n
    ensures forall k :: 0 <= k < n ==> s[k] == '0'
  {
    seq(n, _ => '0')
  }

  /** `s.zfill(width)`: pads with zeros on the left, after a leading sign,
      up to `width` characters; a longer string is returned unchanged. */
  function ZFill(s: string, width: int): (r: string)
    ensures |r| == if |s| >= width then |s| else width
    ensures |s| >= width ==> r == s
  {
    if |s| >= width then s
    else if |s| > 0 && (s[0] == '+' || s[0] == '-') then [s[0]] + Zeros(width - |s|) + s[1..]
    else Zeros(width - |s|) + s
  }

  /** The spelling of a frame number inside a frame path:
      `str(frame_num).zfill(4)` (player_core.py:91). */
  function FrameNumberText(n: int): (r: string)
    ensures |r| == if |IntToString(n)| >= 4 then |IntToString(n)| else 4
    ensures n >= 0 ==> AllDigits(r)
    ensures n < 0 ==> r[0] == '-' && AllDigits(r[1..])
    ensures 0 <= n < 10000 ==> |r| == 4
  {
    assert 0 <= n < 10000 ==> |IntToString(n)| <= 4 by {
      if 0 <= n < 10000 {
        assert Pow10(4) == 10000;
        SpellingWidth(n, 4);
      }
    }
    var r := ZFill(IntToString(n), 4);
    assert n < 0 ==> r[1..] == Zeros(|r| - |IntToString(n)|) + IntToString(n)[1..]
                     || r == IntToString(n);
    r
  }

  /** Reads an unsigned run of decimal digits, leading zeros allowed. */
  function ParseDigits(s: string): (n: nat)
    requires AllDigits(s)
  {
    if s == [] then 0 else ParseDigits(s[..|s| - 1]) * 10 + DigitValue(s[|s| - 1])
  }

  /** Reads an optionally negative decimal integer (`int(s)` on these spellings). */
  function ParseInt(s: string): int
    requires |s| > 0
    requires AllDigits(s) || (s[0] == '-' && AllDigits(s[1..]))
  {
    if s[0] == '-' then 0 - ParseDigits(s[1..]) as int else ParseDigits(s)
  }

  lemma {:induction false} ParseNatToString(n: nat)
    ensures ParseDigits(NatToString(n)) == n
  {
    if n >= 10 {
      var s := NatToString(n);
      assert s[..|s| - 1] == NatToString(n / 10);
      ParseNatToString(n / 10);
    }
  }

  /** Leading zeros do not change the value that is read. */
  lemma {:induction false} ParseLeadingZeros(z: nat, s: string)
    requires AllDigits(s)
    ensures AllDigits(Zeros(z) + s)
    ensures ParseDigits(Zeros(z) + s) == ParseDigits(s)
  {
    if s == [] {
      assert Zeros(z) + s == Zeros(z);
      ParseZeros(z);
    } else {
      var t := Zeros(z) + s;
      assert t[..|t| - 1] == Zeros(z) + s[..|s| - 1];
      ParseLeadingZeros(z, s[..|s| - 1]);
    }
  }

  lemma {:induction false} ParseZeros(z: nat)
    ensures ParseDigits(Zeros(z)) == 0
  {
    if z > 0 {
      assert Zeros(z)[..z - 1] == Zeros(z - 1);
      ParseZeros(z - 1);
    }
  }

  /** The zero-padded spelling of a frame number reads back as that number,
      so padding never loses or changes the frame it names. */
  lemma FrameNumberTextRoundTrip(n: int)
    ensures ParseInt(FrameNumberText(n)) == n
  {
    var s := IntToString(n);
    var r := FrameNumberText(n);
    if n >= 0 {
      ParseNatToString(n);
      if |s| < 4 {
        assert r == Zeros(4 - |s|) + s;
        ParseLeadingZeros(4 - |s|, s);
      }
    } else {
      ParseNatToString(-n);
      assert s[1..] == NatToString(-n);
      if |s| < 4 {
        assert r == ['-'] + Zeros(4 - |s|) + s[1..];
        assert r[1..] == Zeros(4 - |s|) + s[1..];
        ParseLeadingZeros(4 - |s|, s[1..]);
      } else {
        assert r == s;
      }
    }
  }

  /** The padding only ever adds zeros in front of the plain spelling. */
  lemma FrameNumberTextKeepsDigits(n: nat)
    ensures |FrameNumberText(n)| >= 4
    ensures FrameNumberText(n) == Zeros(|FrameNumberText(n)| - |NatToString(n)|) + NatToString(n)
  {
    var s := NatToString(n);
    if |s| >= 4 {
      assert Zeros(0) + s == s;
    }
  }

  /** A one-digit frame number gets three leading zeros. */
  lemma FrameNumberTextOneDigit(n: int)
    requires 0 <= n < 10
    ensures FrameNumberText(n) == ['0', '0', '0', DigitChar(n)]
  {
    assert NatToString(n) == [DigitChar(n)];
    assert Zeros(3) == ['0', '0', '0'];
  }

  lemma FrameNumberTextLong()
    ensures FrameNumberText(12345) == "12345"
  {
    assert NatToString(1) == "1";
    assert NatToString(12) == "12";
    assert NatToString(123) == "123";
    assert NatToString(1234) == "1234";
    assert NatToString(12345) == "12345";
  }

  lemma FrameNumberTextNegative()
    ensures FrameNumberText(-5) == "-005"
  {
    assert NatToString(5) == "5";
    assert IntToString(-5) == "-5";
    assert Zeros(2) == "00";
  }

  lemma FrameNumberTextExamples()
    ensures FrameNumberText(7) == "0007"
    ensures FrameNumberText(2) == "0002"
    ensures FrameNumberText(12345) == "12345"
    ensures FrameNumberText(-5) == "-005"
  {
    FrameNumberTextOneDigit(7);
    FrameNumberTextOneDigit(2);
    FrameNumberTextLong();
    FrameNumberTextNegative();
  }
}

=== FILE: image_cache.dfy ===
/** The prefetch cache of player_core.py:49-77 as a sequential state machine.
    The producer thread becomes the step `Produce`, the consumer's
    `get_image` becomes `Get`, and `stop` sets the event and then runs the
    producer until it exits (the join). Image decoding is the opaque `load`. */
module ImageCache {
  import opened Wrappers
  import opened Numbers

  datatype Cache<Img> = Cache(
    pending: seq<string>,   // paths the producer has not taken yet
    queue: seq<Img>,        // decoded images waiting for the consumer
    maxSize: int,           // `queue.Queue(maxsize=...)`
    committed: bool,        // passed the stop check for `pending[0]`, waiting for room or loading
    stopEvent: bool,        // `stop_event.is_set()`
    finished: bool)         // the producer thread has returned

  /** `queue.Queue.full()`: a queue with `maxsize <= 0` is never full. */
  predicate Full<Img(==)>(c: Cache<Img>) {
    0 < c.maxSize <= |c.queue|
  }

  /** A committed producer holds a path and is still running. */
  predicate WellFormed<Img(==)>(c: Cache<Img>) {
    c.committed ==> c.pending != [] && !c.finished
  }

  /** Python's `s[k:]`, including the negative `k` that counts from the end. */
  function SliceFrom<T>(s: seq<T>, k: int): (r: seq<T>)
    ensures |r| == if k >= 0 then Max(0, |s| - k) else Min(|s|, -k)
    ensures r == s[|s| - |r|..]
  {
    if k >= 0 then (if k >= |s| then [] else s[k..])
    else if -k >= |s| then s else s[|s| + k..]
  }

  /** `ImageCache(frame_paths, max_cache_size, start_index)`, before its thread
      has taken a step. */
  function Init<Img>(framePaths: seq<string>, maxSize: int, startIndex: int): (r: Cache<Img>)
    ensures r.pending == SliceFrom(framePaths, startIndex) && r.queue == [] && r.maxSize == maxSize
    ensures !r.committed && !r.stopEvent && !r.finished
  {
    Cache(SliceFrom(framePaths, startIndex), [], maxSize, false, false, false)
  }

  /** The images `load` yields for `paths`, in path order, failures dropped. */
  function Loaded<Img(==)>(paths: seq<string>, load: string -> Option<Img>): seq<Img> {
    if paths == [] then []
    else Loaded(paths[..|paths| - 1], load) + LoadOne(paths[|paths| - 1], load)
  }

  function LoadOne<Img(==)>(path: string, load: string -> Option<Img>): seq<Img> {
    match load(path)
    case Some(img) => [img]
    case None => []
  }

  /** One step of `_preload_images` (player_core.py:57-67): at the top of the
      loop it ends on an exhausted list or a set stop event, otherwise it
      commits to the next path; a committed producer spins while the queue is
      full, then loads the path and enqueues the image, or skips a failed load. */
  function Produce<Img(==)>(c: Cache<Img>, load: string -> Option<Img>): (r: Cache<Img>)
    requires WellFormed(c)
    ensures WellFormed(r)
    ensures r.stopEvent == c.stopEvent && r.maxSize == c.maxSize
    // a step takes at most the path in hand and queues at most its image,
    // behind those already queued, never past the bound
    ensures r.pending == c.pending || (c.committed && r.pending == c.pending[1..])
    ensures c.queue <= r.queue && |r.queue| <= |c.queue| + 1
    ensures 0 < c.maxSize && |c.queue| <= c.maxSize ==> |r.queue| <= c.maxSize
    // a returned producer stays returned
    ensures c.finished ==> r == c
  {
    if c.finished then c
    else if !c.committed then
      if c.pending == [] || c.stopEvent then c.(finished := true)
      else c.(committed := true)
    else if Full(c) then c
    else c.(queue := c.queue + LoadOne(c.pending[0], load), pending := c.pending[1..], committed := false)
  }

  /** `n` producer steps in a row. */
  function ProduceN<Img(==)>(c: Cache<Img>, n: nat, load: string -> Option<Img>): (r: Cache<Img>)
    requires WellFormed(c)
    ensures WellFormed(r)
    ensures r.stopEvent == c.stopEvent && r.maxSize == c.maxSize
    decreases n
  {
    if n == 0 then c else ProduceN(Produce(c, load), n - 1, load)
  }

  /** `get_image` (player_core.py:69-73): the oldest image, or `None` when the
      queue is empty at the moment of the pull (the one-second timeout). */
  function Get<Img(==)>(c: Cache<Img>): (r: (Option<Img>, Cache<Img>))
    ensures r.0.None? <==> c.queue == []
    ensures r.0.Some? ==> [r.0.value] + r.1.queue == c.queue
    ensures r.0.None? ==> r.1 == c
    ensures r.1 == c.(queue := r.1.queue)
  {
    if c.queue == [] then (None, c) else (Some(c.queue[0]), c.(queue := c.queue[1..]))
  }

  /** The images the consumer has taken so far, `taken`, followed by the
      queue, are exactly the successful loads of the paths processed so far;
      the unprocessed paths are the tail of `paths`; a bounded queue never
      exceeds its size. */
  predicate Inv<Img(==)>(c: Cache<Img>, paths: seq<string>, load: string -> Option<Img>, taken: seq<Img>) {
    && WellFormed(c)
    && |c.pending| <= |paths|
    && c.pending == paths[|paths| - |c.pending|..]
    && taken + c.queue == Loaded(paths[..|paths| - |c.pending|], load)
    && (c.maxSize > 0 ==> |c.queue| <= c.maxSize)
  }

  /** A new cache holds exactly `frame_paths[start_index:]` and nothing is
      loaded yet. */
  lemma InitHoldsRemainingPaths<Img>(framePaths: seq<string>, maxSize: int, startIndex: int,
                                     load: string -> Option<Img>)
    ensures 0 <= startIndex <= |framePaths| ==> Init<Img>(framePaths, maxSize, startIndex).pending == framePaths[startIndex..]
    ensures Inv(Init<Img>(framePaths, maxSize, startIndex), SliceFrom(framePaths, startIndex), load, [])
  {
    var p := SliceFrom(framePaths, startIndex);
    assert p[..0] == [];
  }

  lemma LoadedSnoc<Img>(paths: seq<string>, n: nat, load: string -> Option<Img>)
    requires n < |paths|
    ensures Loaded(paths[..n + 1], load) == Loaded(paths[..n], load) + LoadOne(paths[n], load)
  {
    assert paths[..n + 1][..n] == paths[..n];
  }

  /** The loads of a prefix of the paths are a prefix of the loads of all. */
  lemma {:induction false} LoadedPrefix<Img>(paths: seq<string>, m: nat, load: string -> Option<Img>)
    requires m <= |paths|
    ensures Loaded(paths[..m], load) <= Loaded(paths, load)
    decreases |paths| - m
  {
    if m < |paths| {
      LoadedSnoc(paths, m, load);
      LoadedPrefix(paths, m + 1, load);
    } else {
      assert paths[..m] == paths;
    }
  }

  /** Under the invariant, the images taken so far are the first successful
      loads of the paths, in path order. */
  lemma TakenArePrefix<Img>(c: Cache<Img>, paths: seq<string>, load: string -> Option<Img>, taken: seq<Img>)
    requires Inv(c, paths, load, taken)
    ensures taken <= Loaded(paths, load)
  {
    LoadedPrefix(paths, |paths| - |c.pending|, load);
    assert taken <= taken + c.queue;
  }

  /** The images taken and still queued are likewise a prefix of the loads. */
  lemma QueuedArePrefix<Img>(c: Cache<Img>, paths: seq<string>, load: string -> Option<Img>, taken: seq<Img>)
    requires Inv(c, paths, load, taken)
    ensures taken + c.queue <= Loaded(paths, load)
  {
    LoadedPrefix(paths, |paths| - |c.pending|, load);
  }

  /** A producer step keeps the invariant: loads go to the back of the queue
      in path order, failed loads are skipped, and a full queue is waited on. */
  lemma ProduceKeepsInv<Img>(c: Cache<Img>, paths: seq<string>, load: string -> Option<Img>, taken: seq<Img>)
    requires Inv(c, paths, load, taken)
    ensures Inv(Produce(c, load), paths, load, taken)
  {
    var r := Produce(c, load);
    if c.finished || !c.committed || Full(c) {
      assert r.queue == c.queue && r.pending == c.pending;
    } else {
      var n := |paths| - |c.pending|;
      assert c.pending[0] == paths[n];
      LoadedSnoc(paths, n, load);
      assert r.pending == paths[n + 1..];
      assert |paths| - |r.pending| == n + 1;
      assert taken + r.queue == (taken + c.queue) + LoadOne(paths[n], load);
    }
  }

  lemma {:induction false} ProduceNKeepsInv<Img>(c: Cache<Img>, n: nat, paths: seq<string>,
                                                 load: string -> Option<Img>, taken: seq<Img>)
    requires Inv(c, paths, load, taken)
    ensures Inv(ProduceN(c, n, load), paths, load, taken)
    decreases n
  {
    if n > 0 {
      ProduceKeepsInv(c, paths, load, taken);
      ProduceNKeepsInv(Produce(c, load), n - 1, paths, load, taken);
    }
  }

  /** Taking an image moves it from the queue to the taken prefix, so the
      consumer sees the loaded images first in, first out. */
  lemma GetKeepsInv<Img>(c: Cache<Img>, paths: seq<string>, load: string -> Option<Img>, taken: seq<Img>)
    requires Inv(c, paths, load, taken)
    ensures var (img, c') := Get(c);
            Inv(c', paths, load, taken + (if img.Some? then [img.value] else []))
  {
    var (img, c') := Get(c);
    if img.Some? {
      assert taken + c.queue == (taken + [img.value]) + c'.queue;
    }
  }

  /** Once the stop event is seen at the top of the loop, no further path is
      taken, however many steps the producer makes. */
  lemma {:induction false} NoPathAfterStop<Img>(c: Cache<Img>, n: nat, load: string -> Option<Img>)
    requires WellFormed(c) && c.stopEvent && !c.committed
    ensures ProduceN(c, n, load).pending == c.pending
    ensures ProduceN(c, n, load).queue == c.queue
    ensures n > 0 ==> ProduceN(c, n, load).finished
    decreases n
  {
    if n > 0 {
      var d := Produce(c, load);
      assert d == c.(finished := true) || d == c;
      assert d.finished;
      NoPathAfterStop(d, n - 1, load);
    }
  }

  /** How close the producer is to exiting once the stop event is set. */
  function StopMeasure<Img(==)>(c: Cache<Img>): nat {
    if c.finished then 0 else 2 * |c.pending| + (if c.committed then 2 else 1)
  }

  /** The result of `join()`: the producer returned, or it can make no
      further step and the join waits forever. */
  datatype JoinOutcome<Img> = Joined(cache: Cache<Img>) | Hung(cache: Cache<Img>)

  /** `thread.join()` after the stop event is set: run the producer until it
      returns; a step that changes nothing while it has not returned is a
      producer that will spin forever. */
  function Join<Img(==)>(c: Cache<Img>, load: string -> Option<Img>): (r: JoinOutcome<Img>)
    requires WellFormed(c) && c.stopEvent
    ensures r.cache.stopEvent && WellFormed(r.cache) && c.queue <= r.cache.queue
    ensures r.Joined? ==> r.cache.finished
    ensures r.Hung? ==> r.cache.committed && Full(r.cache)
    decreases StopMeasure(c)
  {
    if c.finished then Joined(c)
    else
      var n := Produce(c, load);
      if n == c then Hung(c)
      else
        assert StopMeasure(n) < StopMeasure(c);
        Join(n, load)
  }

  /** `stop()` as written (player_core.py:75-77). */
  function Stop<Img(==)>(c: Cache<Img>, load: string -> Option<Img>): (r: JoinOutcome<Img>)
    requires WellFormed(c)
    ensures r.cache.stopEvent && c.queue <= r.cache.queue
    ensures r.Joined? ==> r.cache.finished
    ensures r.Hung? ==> r.cache.committed && Full(r.cache)
  {
    Join(c.(stopEvent := true), load)
  }

  /** As written, `stop()` returns exactly when the producer is not waiting
      for room in a full queue: the wait loop (player_core.py:61-62) never
      looks at the stop event, and the only consumer is the caller of
      `stop()`. */
  lemma StopHangsIff<Img>(c: Cache<Img>, load: string -> Option<Img>)
    requires WellFormed(c)
    ensures Stop(c, load).Hung? <==> !c.finished && c.committed && Full(c)
    ensures Stop(c, load).Joined? ==> Stop(c, load).cache.finished
  {
    var s := c.(stopEvent := true);
    if !s.finished && !s.committed {
      var n := Produce(s, load);
      assert n.finished && n != s;
      assert Join(n, load) == Joined(n);
    } else if !s.finished && !Full(s) {
      var n := Produce(s, load);
      assert n != s by { assert !n.committed; }
      assert Join(s, load) == Join(n, load);
      var m := Produce(n, load);
      assert m.finished && m != n;
      assert Join(n, load) == Join(m, load);
      assert Join(m, load) == Joined(m);
    }
  }

  /** A reachable hang: two frames, a queue of one image, nobody consuming.
      The producer loads the first frame, commits to the second, and waits
      for room; `stop()` then never returns. */
  lemma StopCanHang()
    ensures var load := (p: string) => Some(0);
            var c := ProduceN(Init<int>(["f.0001.png", "f.0002.png"], 1, 0), 3, load);
            Stop(c, load).Hung?
  {
    var load := (p: string) => Some(0);
    var c0 := Init<int>(["f.0001.png", "f.0002.png"], 1, 0);
    var c1 := Produce(c0, load);
    var c2 := Produce(c1, load);
    var c3 := Produce(c2, load);
    assert c1.committed;
    assert c2.queue == [0] && c2.pending == ["f.0002.png"];
    assert c3.committed && Full(c3);
    assert ProduceN(c0, 3, load) == c3;
    StopHangsIff(c3, load);
  }

  /** The hang is reachable after the consumer has taken a frame: three
      frames and a queue of one image. The producer loads the first frame,
      the consumer takes it, the producer loads the second and commits to
      the third, and `stop()` then never returns. */
  lemma StopHangsAfterGet()
    ensures var load := (p: string) => Some(0);
            var c0 := Init<int>(["f.0001.png", "f.0002.png", "f.0003.png"], 1, 0);
            var c := ProduceN(Get(ProduceN(c0, 2, load)).1, 3, load);
            Stop(c, load).Hung?
  {
    var load := (p: string) => Some(0);
    var c0 := Init<int>(["f.0001.png", "f.0002.png", "f.0003.png"], 1, 0);
    var c2 := ProduceN(c0, 2, load);
    assert c2 == Produce(Produce(c0, load), load);
    assert c2.queue == [0] && c2.pending == ["f.0002.png", "f.0003.png"] && !c2.committed;
    var g := Get(c2).1;
    assert g.queue == [] && g.pending == c2.pending;
    var d1 := Produce(g, load);
    var d2 := Produce(d1, load);
    var d3 := Produce(d2, load);
    assert d2.queue == [0] && d2.pending == ["f.0003.png"];
    assert d3.committed && Full(d3);
    assert ProduceN(g, 3, load) == d3;
    StopHangsIff(d3, load);
  }

  /** The producer step with the stop event also checked inside the wait for
      room, which is what the cancellation contract of `stop()` needs. */
  function ProduceChecked<Img(==)>(c: Cache<Img>, load: string -> Option<Img>): (r: Cache<Img>)
    requires WellFormed(c)
    ensures WellFormed(r)
    ensures r.stopEvent == c.stopEvent && r.maxSize == c.maxSize
    ensures !c.stopEvent ==> r == Produce(c, load)
    ensures c.stopEvent && !c.finished ==> StopMeasure(r) < StopMeasure(c)
  {
    if c.finished then c
    else if !c.committed then
      if c.pending == [] || c.stopEvent then c.(finished := true)
      else c.(committed := true)
    else if Full(c) then
      if c.stopEvent then c.(committed := false, finished := true) else c
    else c.(queue := c.queue + LoadOne(c.pending[0], load), pending := c.pending[1..], committed := false)
  }

  function JoinChecked<Img(==)>(c: Cache<Img>, load: string -> Option<Img>): (r: Cache<Img>)
    requires WellFormed(c) && c.stopEvent
    ensures r.finished && r.stopEvent && WellFormed(r)
    decreases StopMeasure(c)
  {
    if c.finished then c else JoinChecked(ProduceChecked(c, load), load)
  }

  /** `stop()` with the corrected producer: it always returns with the
      producer finished, takes at most the one path it had committed to, and
      keeps every image already queued. */
  function StopChecked<Img(==)>(c: Cache<Img>, load: string -> Option<Img>): (r: Cache<Img>)
    requires WellFormed(c)
    ensures r.finished && r.stopEvent && WellFormed(r)
    ensures r.pending == c.pending || (c.committed && r.pending == c.pending[1..])
    ensures c.queue <= r.queue && |r.queue| <= |c.queue| + 1
  {
    var s := c.(stopEvent := true);
    var n := ProduceChecked(s, load);
    assert !n.committed;
    var m := ProduceChecked(n, load);
    assert m.finished;
    assert JoinChecked(n, load) == m || n.finished;
    JoinChecked(s, load)
  }

  /** Where the written `stop()` returns, the corrected one returns the same
      state; the two differ only where the written one hangs. */
  lemma StopCheckedAgrees<Img>(c: Cache<Img>, load: string -> Option<Img>)
    requires WellFormed(c)
    requires !(c.committed && Full(c))
    ensures Stop(c, load) == Joined(StopChecked(c, load))
  {
    var s := c.(stopEvent := true);
    if !s.finished && !s.committed {
      var n := Produce(s, load);
      assert n == ProduceChecked(s, load) && n.finished && n != s;
      assert Join(s, load) == Join(n, load) == Joined(n);
      assert JoinChecked(s, load) == JoinChecked(n, load) == n;
    } else if !s.finished {
      var n := Produce(s, load);
      assert n == ProduceChecked(s, load);
      assert n != s by { assert !n.committed; }
      assert Join(s, load) == Join(n, load);
      var m := Produce(n, load);
      assert m == ProduceChecked(n, load);
      assert m.finished && m != n;
      assert Join(n, load) == Join(m, load);
      assert JoinChecked(s, load) == JoinChecked(n, load) == m;
    }
  }

  /** Stopping twice is stopping once: the second call finds the producer
      already returned. */
  lemma StopCheckedIdempotent<Img>(c: Cache<Img>, load: string -> Option<Img>)
    requires WellFormed(c)
    ensures StopChecked(StopChecked(c, load), load) == StopChecked(c, load)
  {
  }

  /** The corrected stop keeps the cache invariant. */
  lemma StopCheckedKeepsInv<Img>(c: Cache<Img>, paths: seq<string>, load: string -> Option<Img>, taken: seq<Img>)
    requires Inv(c, paths, load, taken)
    ensures Inv(StopChecked(c, load), paths, load, taken)
  {
    var s := c.(stopEvent := true);
    assert Inv(s, paths, load, taken);
    var n := ProduceChecked(s, load);
    if s.finished {
      assert StopChecked(c, load) == s;
    } else if !s.committed || Full(s) {
      assert n.finished && n.queue == s.queue && n.pending == s.pending;
      assert JoinChecked(s, load) == JoinChecked(n, load) == n;
    } else {
      ProduceKeepsInv(s, paths, load, taken);
      assert n == Produce(s, load);
      var m := ProduceChecked(n, load);
      assert m.finished && m.queue == n.queue && m.pending == n.pending;
      assert JoinChecked(s, load) == JoinChecked(n, load) == m;
    }
  }

  /** Which `stop()` ends a playback: the one written, or the corrected one. */
  datatype StopVariant = AsWritten | Corrected

  /** The outcome of ending a playback with either `stop()`: only the written
      one hangs, and only on a producer waiting for room in a full queue. */
  function StopWith<Img(==)>(v: StopVariant, c: Cache<Img>, load: string -> Option<Img>): (r: JoinOutcome<Img>)
    requires WellFormed(c)
    ensures r.Hung? <==> v == AsWritten && c.committed && Full(c)
    ensures r.Joined? ==> r.cache.finished && r.cache.stopEvent
    ensures v == AsWritten ==> r == Stop(c, load)
    ensures v == Corrected ==> r == Joined(StopChecked(c, load))
  {
    StopHangsIff(c, load);
    if v == AsWritten then Stop(c, load) else Joined(StopChecked(c, load))
  }
}

=== FILE: numbers.dfy ===
/** Integer helpers shared by the other modules. */
module Numbers {

  function Min(a: int, b: int): int { if a <= b then a else b }

  function Max(a: int, b: int): int { if a <= b then b else a }
}

=== FILE: playback.dfy ===
/** The playback loop of `play_with_cache` (player_core.py:80-193) over an
    abstract clock. Everything the outside world decides during a pass of
    the loop (the stop and pause flags, how long a pause lasts, how much time
    other work takes, how far the prefetch thread gets) is read from an
    environment `env`, one `Tick` per pass. Audio calls are no-ops. */
module Playback {
  import opened Wrappers
  import opened Numbers
  import opened Shots
  import opened Resolver
  import opened ImageCache

  /** What the environment does during one pass of the loop. */
  datatype Tick = Tick(
    stopRequested: bool,  // `stop_flag()` at the top of the pass
    pause: Option<nat>,   // `pause_flag()` held: the length of the pause
    drift: nat,           // time passing between the top of the pass and the pacing check
    fetch: nat,           // time from the end of the pacing sleep to the timestamp
    produced: nat)        // prefetch steps taken before `get_image`, or before
                          // `cache.stop()` when the loop ends at this pass

  /** A frame rate kept as the exact ratio `frames / elapsed` instead of a
      float; `NoRate` is the source's `0.0` for a window of fewer than two
      timestamps. */
  datatype Rate = NoRate | Rate(frames: nat, elapsed: int)

  /** One `on_frame(current, total, fps)` call. */
  datatype FrameCall = FrameCall(current: int, total: int, rate: Rate)

  datatype EndReason =
    | Exhausted       // the index reached the number of frames
    | StopRequested   // `stop_flag()` held at the top of a pass
    | IndexFault      // `all_paths[i]` raised for an index below `-total`

  /** A run refused by the guards, or one that played. `drained` is the
      cache at the moment `cache.stop()` is called and `prefetch` what the
      stop did (`None` when the loop ended on the index fault and the cache
      was never stopped). A `Hung` prefetch is a call that never returns:
      the average is never computed. */
  datatype Session<Img> =
    | Refused(reason: Refusal)
    | Played(calls: seq<FrameCall>, shown: seq<Img>, stamps: seq<int>, anchor: int,
             totalPause: int, endIndex: int, endReason: EndReason,
             average: Option<Rate>, drained: Cache<Img>, prefetch: Option<JoinOutcome<Img>>)

  /** Length of the rolling timestamp window (player_core.py:167). */
  const WindowSize: nat := 10

  /** The last `min(10, n)` timestamps. */
  function Window(stamps: seq<int>): seq<int> {
    stamps[|stamps| - Min(WindowSize, |stamps|)..]
  }

  /** The instantaneous rate of a window (player_core.py:170-174). */
  function WindowRate(w: seq<int>): (r: Rate)
    // a rate needs two timestamps; it counts the intervals between the
    // oldest and the newest over the time they span
    ensures r.NoRate? <==> |w| < 2
    ensures r.Rate? ==> r.frames == |w| - 1 >= 1 && r.elapsed == w[|w| - 1] - w[0]
  {
    if |w| >= 2 then Rate(|w| - 1, w[|w| - 1] - w[0]) else NoRate
  }

  /** The session average of player_core.py:185-188. */
  function AverageRate(stamps: seq<int>, totalPause: int): (r: Option<Rate>)
    // no average below two timestamps; otherwise the intervals over the
    // time from the first to the last timestamp less the time paused
    ensures r.None? <==> |stamps| <= 1
    ensures r.Some? ==> r.value.Rate? && r.value.frames == |stamps| - 1
                        && r.value.elapsed + totalPause == stamps[|stamps| - 1] - stamps[0]
  {
    if |stamps| > 1 then Some(Rate(|stamps| - 1, stamps[|stamps| - 1] - stamps[0] - totalPause))
    else None
  }

  function PauseOf(t: Tick): nat {
    match t.pause
    case Some(d) => d
    case None => 0
  }

  /** Total pause time of the first `n` passes. */
  function PausedThrough(env: nat -> Tick, n: nat): nat {
    if n == 0 then 0 else PausedThrough(env, n - 1) + PauseOf(env(n - 1))
  }

  /** Appending a timestamp and dropping the oldest once there are more than
      ten (player_core.py:165-168) keeps the window equal to the last ten. */
  lemma WindowSnoc(stamps: seq<int>, t: int)
    ensures var w := Window(stamps) + [t];
            Window(stamps + [t]) == if |w| > WindowSize then w[1..] else w
  {
    var s := stamps + [t];
    var m := |stamps|;
    var w := Window(stamps) + [t];
    if m >= WindowSize {
      assert Window(stamps) == stamps[m - 10..];
      assert Window(s) == s[m + 1 - 10..];
      assert w[1..] == stamps[m - 9..] + [t];
      assert s[m - 9..] == stamps[m - 9..] + [t];
    } else {
      assert Window(s) == s[0..];
      assert Window(stamps) == stamps[0..];
    }
  }

  /** The `on_frame` calls a run of passes from `startIndex` makes, given
      the timestamps of those passes. */
  function CallsFor(startIndex: int, total: int, stamps: seq<int>): (calls: seq<FrameCall>)
    ensures |calls| == |stamps|
  {
    if stamps == [] then []
    else CallsFor(startIndex, total, stamps[..|stamps| - 1])
         + [FrameCall(startIndex + |stamps|, total, WindowRate(Window(stamps)))]
  }

  lemma CallsForSnoc(startIndex: int, total: int, stamps: seq<int>, x: int)
    ensures CallsFor(startIndex, total, stamps + [x])
            == CallsFor(startIndex, total, stamps)
               + [FrameCall(startIndex + |stamps| + 1, total, WindowRate(Window(stamps + [x])))]
  {
    assert (stamps + [x])[..|stamps|] == stamps;
  }

  lemma {:induction false} CallsForAt(startIndex: int, total: int, stamps: seq<int>)
    ensures |CallsFor(startIndex, total, stamps)| == |stamps|
    ensures forall k :: 0 <= k < |stamps| ==>
              CallsFor(startIndex, total, stamps)[k]
              == FrameCall(startIndex + k + 1, total, WindowRate(Window(stamps[..k + 1])))
  {
    if stamps != [] {
      var m := |stamps| - 1;
      CallsForAt(startIndex, total, stamps[..m]);
      assert stamps[..m + 1] == stamps;
      forall k | 0 <= k < m
        ensures CallsFor(startIndex, total, stamps)[k]
                == FrameCall(startIndex + k + 1, total, WindowRate(Window(stamps[..k + 1])))
      {
        assert stamps[..m][..k + 1] == stamps[..k + 1];
      }
    }
  }

  /** The first `on_frame` call of a run reports rate 0 and every later one
      a measured rate: the window holds at least two timestamps from the
      second pass on. */
  lemma RateOnlyFromSecondFrame(startIndex: int, total: int, stamps: seq<int>)
    ensures forall k :: 0 <= k < |stamps| ==>
              (CallsFor(startIndex, total, stamps)[k].rate == NoRate <==> k == 0)
  {
    CallsForAt(startIndex, total, stamps);
  }

  /** The earliest time the pacing lets the `k`-th pass of a session take its
      timestamp: `k` frame durations after the start, plus the pauses so far. */
  function Scheduled(clock0: int, frameTicks: nat, env: nat -> Tick, k: nat): int {
    clock0 + k * frameTicks + PausedThrough(env, k + 1)
  }

  predicate Paced(stamps: seq<int>, clock0: int, frameTicks: nat, env: nat -> Tick) {
    forall k :: 0 <= k < |stamps| ==> stamps[k] >= Scheduled(clock0, frameTicks, env, k)
  }

  /** Each timestamp is taken no earlier than the ones before it. */
  predicate Ordered(stamps: seq<int>)
    decreases |stamps|
  {
    stamps != [] ==>
      Ordered(stamps[..|stamps| - 1]) && Before(stamps[..|stamps| - 1], stamps[|stamps| - 1])
  }

  predicate Before(stamps: seq<int>, now: int) {
    forall k :: 0 <= k < |stamps| ==> stamps[k] <= now
  }

  lemma {:induction false} OrderedPairwise(stamps: seq<int>)
    requires Ordered(stamps)
    ensures forall a, b :: 0 <= a < b < |stamps| ==> stamps[a] <= stamps[b]
  {
    if stamps != [] {
      var m := |stamps| - 1;
      var init := stamps[..m];
      OrderedPairwise(init);
      forall a, b | 0 <= a < b < |stamps|
        ensures stamps[a] <= stamps[b]
      {
        if b == m {
          assert init[a] == stamps[a];
        } else {
          assert init[a] == stamps[a] && init[b] == stamps[b];
        }
      }
    }
  }

  lemma StampsSnoc(stamps: seq<int>, now: int, x: int, clock0: int, frameTicks: nat, env: nat -> Tick)
    requires Ordered(stamps) && Before(stamps, now) && Paced(stamps, clock0, frameTicks, env)
    requires now <= x && Scheduled(clock0, frameTicks, env, |stamps|) <= x
    ensures Ordered(stamps + [x]) && Before(stamps + [x], x) && Paced(stamps + [x], clock0, frameTicks, env)
  {
    OrderedSnoc(stamps, now, x);
    PacedSnoc(stamps, x, clock0, frameTicks, env);
  }

  lemma OrderedSnoc(stamps: seq<int>, now: int, x: int)
    requires Ordered(stamps) && Before(stamps, now) && now <= x
    ensures Ordered(stamps + [x]) && Before(stamps + [x], x)
  {
    var s := stamps + [x];
    assert s[..|s| - 1] == stamps;
    assert s[|s| - 1] == x;
    assert Before(stamps, x);
    forall k | 0 <= k < |s|
      ensures s[k] <= x
    {
      if k < |stamps| {
        assert s[k] == stamps[k];
      }
    }
  }

  lemma PacedSnoc(stamps: seq<int>, x: int, clock0: int, frameTicks: nat, env: nat -> Tick)
    requires Paced(stamps, clock0, frameTicks, env)
    requires Scheduled(clock0, frameTicks, env, |stamps|) <= x
    ensures Paced(stamps + [x], clock0, frameTicks, env)
  {
    var s := stamps + [x];
    forall k | 0 <= k < |s|
      ensures s[k] >= Scheduled(clock0, frameTicks, env, k)
    {
      if k < |stamps| {
        assert s[k] == stamps[k];
      }
    }
  }

  /** The pacing target of pass `n` is its scheduled time. */
  lemma TargetIsScheduled(startIndex: int, n: nat, frameTicks: nat, clock0: int, env: nat -> Tick, totalPause: int)
    requires totalPause == PausedThrough(env, n + 1)
    ensures clock0 - startIndex * frameTicks + totalPause + (startIndex + n) * frameTicks
            == Scheduled(clock0, frameTicks, env, n)
  {
    assert (startIndex + n) * frameTicks == startIndex * frameTicks + n * frameTicks;
  }

  /** The prefetch thread runs `produced` steps, then `get_image` pulls the
      oldest image if there is one (player_core.py:151); a pulled image is
      shown. */
  method PullFrame<Img(==)>(cache: Cache<Img>, produced: nat, load: string -> Option<Img>,
                            ghost remaining: seq<string>, shown: seq<Img>)
    returns (cache': Cache<Img>, shown': seq<Img>)
    requires Inv(cache, remaining, load, shown) && !cache.stopEvent
    ensures Inv(cache', remaining, load, shown') && !cache'.stopEvent
    ensures shown' == shown || (|shown'| == |shown| + 1 && shown <= shown')
  {
    ProduceNKeepsInv(cache, produced, remaining, load, shown);
    cache' := ProduceN(cache, produced, load);
    GetKeepsInv(cache', remaining, load, shown);
    var (frame, rest) := Get(cache');
    cache' := rest;
    shown' := shown;
    if frame.Some? {
      shown' := shown + [frame.value];
    }
  }

  /** The timing bookkeeping the loop carries from pass to pass: the clock,
      the pause total, the anchor `start_time`, both timestamp lists and the
      `on_frame` calls made so far. */
  datatype Timing = Timing(now: int, totalPause: int, anchor: int,
                           stamps: seq<int>, live: seq<int>, calls: seq<FrameCall>)

  /** What holds of the timing after `|tm.stamps|` complete passes, with the
      pauses of the first `paused` passes accounted for. */
  predicate Timed(tm: Timing, paused: nat, startIndex: int, total: int, clock0: int,
                  frameTicks: nat, env: nat -> Tick)
  {
    && tm.calls == CallsFor(startIndex, total, tm.stamps)
    && (forall k :: 0 <= k < |tm.stamps| ==> !env(k).stopRequested)
    && tm.live == Window(tm.stamps)
    && tm.totalPause == PausedThrough(env, paused)
    && tm.anchor == clock0 - startIndex * frameTicks + tm.totalPause
    && Ordered(tm.stamps) && Before(tm.stamps, tm.now) && Paced(tm.stamps, clock0, frameTicks, env)
  }

  /** The pause correction and the pacing sleep of pass `n`
      (player_core.py:125-148): a pause moves the anchor and the pause total
      together, and the sleep lasts until the frame's target time. */
  method Pace(tm: Timing, t: Tick, startIndex: int, total: int, clock0: int,
              frameTicks: nat, env: nat -> Tick)
    returns (tm': Timing)
    requires Timed(tm, |tm.stamps|, startIndex, total, clock0, frameTicks, env)
    requires t == env(|tm.stamps|)
    ensures tm'.stamps == tm.stamps && tm'.now >= tm.now
    ensures Timed(tm', |tm.stamps| + 1, startIndex, total, clock0, frameTicks, env)
    ensures tm'.now >= Scheduled(clock0, frameTicks, env, |tm.stamps|)
  {
    var n := |tm.stamps|;
    tm' := tm;
    if t.pause.Some? {
      tm' := tm'.(now := tm'.now + t.pause.value,
                  totalPause := tm'.totalPause + t.pause.value,
                  anchor := tm'.anchor + t.pause.value);
    }
    assert tm'.totalPause == PausedThrough(env, n + 1);
    var now := tm'.now + t.drift;
    var target := tm'.anchor + (startIndex + n) * frameTicks;
    TargetIsScheduled(startIndex, n, frameTicks, clock0, env, tm'.totalPause);
    if target - now > 0 {
      now := target;
    }
    tm' := tm'.(now := now);
  }

  /** Takes the timestamp of pass `n` after `fetch` more time, appends it to
      the full list and to the rolling window, drops the oldest window entry
      beyond ten, and makes the `on_frame` call with the window's rate
      (player_core.py:163-177). */
  method Window10(stamps: seq<int>, live: seq<int>, calls: seq<FrameCall>, now: int,
                  startIndex: int, total: int)
    returns (live': seq<int>, calls': seq<FrameCall>)
    requires live == Window(stamps)
    requires calls == CallsFor(startIndex, total, stamps)
    ensures live' == Window(stamps + [now]) && |live'| <= WindowSize
    ensures calls' == CallsFor(startIndex, total, stamps + [now])
  {
    WindowSnoc(stamps, now);
    live' := live + [now];
    if |live'| > WindowSize {
      live' := live'[1..];
    }
    var rate := if |live'| >= 2 then Rate(|live'| - 1, live'[|live'| - 1] - live'[0]) else NoRate;
    CallsForSnoc(startIndex, total, stamps, now);
    calls' := calls + [FrameCall(startIndex + |stamps| + 1, total, rate)];
  }

  method Stamp(tm: Timing, fetch: nat, startIndex: int, total: int, clock0: int,
               frameTicks: nat, env: nat -> Tick)
    returns (tm': Timing)
    requires Timed(tm, |tm.stamps| + 1, startIndex, total, clock0, frameTicks, env)
    requires tm.now >= Scheduled(clock0, frameTicks, env, |tm.stamps|)
    requires !env(|tm.stamps|).stopRequested
    ensures tm'.stamps == tm.stamps + [tm.now + fetch]
    ensures Timed(tm', |tm'.stamps|, startIndex, total, clock0, frameTicks, env)
    ensures |tm'.live| <= WindowSize
    ensures tm'.calls[|tm'.calls| - 1].current == startIndex + |tm'.stamps|
  {
    var now := tm.now + fetch;
    StampsSnoc(tm.stamps, tm.now, now, clock0, frameTicks, env);
    var live, calls := Window10(tm.stamps, tm.live, tm.calls, now, startIndex, total);
    tm' := Timing(now, tm.totalPause, tm.anchor, tm.stamps + [now], live, calls);
    assert (forall k :: 0 <= k < |tm'.stamps| ==> !env(k).stopRequested);
  }

  /** What a run of passes leaves behind: one call per timestamp, each with
      its index, the frame count and the rate of the window ending at it;
      timestamps in order, none earlier than scheduled. */
  lemma TimedSummary(tm: Timing, startIndex: int, total: int, clock0: int,
                     frameTicks: nat, env: nat -> Tick)
    requires Timed(tm, |tm.stamps|, startIndex, total, clock0, frameTicks, env)
    ensures |tm.calls| == |tm.stamps|
    ensures forall k :: 0 <= k < |tm.calls| ==>
              tm.calls[k] == FrameCall(startIndex + k + 1, total, WindowRate(Window(tm.stamps[..k + 1])))
    ensures forall a, b :: 0 <= a < b < |tm.stamps| ==> tm.stamps[a] <= tm.stamps[b]
    ensures forall k :: 0 <= k < |tm.stamps| ==>
              tm.stamps[k] >= clock0 + k * frameTicks + PausedThrough(env, k + 1)
  {
    CallsForAt(startIndex, total, tm.stamps);
    OrderedPairwise(tm.stamps);
  }

  /** One complete pass of the loop (player_core.py:125-179): pause
      correction and pacing, a prefetch run and the pull of a frame, then the
      timestamp and the `on_frame` call. */
  method Pass<Img(==)>(tm: Timing, cache: Cache<Img>, shown: seq<Img>, t: Tick,
                       startIndex: int, total: int, clock0: int, frameTicks: nat,
                       env: nat -> Tick, load: string -> Option<Img>, ghost remaining: seq<string>)
    returns (tm': Timing, cache': Cache<Img>, shown': seq<Img>)
    requires Timed(tm, |tm.stamps|, startIndex, total, clock0, frameTicks, env)
    requires t == env(|tm.stamps|) && !t.stopRequested
    requires Inv(cache, remaining, load, shown) && !cache.stopEvent
    ensures Timed(tm', |tm'.stamps|, startIndex, total, clock0, frameTicks, env)
    ensures |tm'.stamps| == |tm.stamps| + 1
    ensures Inv(cache', remaining, load, shown') && !cache'.stopEvent
    ensures |shown'| <= |shown| + 1
  {
    var paced := Pace(tm, t, startIndex, total, clock0, frameTicks, env);
    cache', shown' := PullFrame(cache, t.produced, load, remaining, shown);
    tm' := Stamp(paced, t.fetch, startIndex, total, clock0, frameTicks, env);
  }

  /** The end of the loop: the prefetch thread takes `late` more steps, then
      `cache.stop()` (player_core.py:181) sets the event and joins it. */
  method StopAfterLoop<Img(==)>(cache: Cache<Img>, late: nat, variant: StopVariant,
                                load: string -> Option<Img>, ghost remaining: seq<string>, shown: seq<Img>)
    returns (drained: Cache<Img>, outcome: JoinOutcome<Img>)
    requires Inv(cache, remaining, load, shown) && !cache.stopEvent
    ensures Inv(drained, remaining, load, shown) && !drained.stopEvent
    ensures outcome == StopWith(variant, drained, load)
  {
    ProduceNKeepsInv(cache, late, remaining, load, shown);
    drained := ProduceN(cache, late, load);
    outcome := StopWith(variant, drained, load);
  }

  /** `ImageCache(all_paths, max_cache_size, start_index)`
      (player_core.py:100): nothing loaded, the remaining paths pending. */
  method OpenCache<Img(==)>(paths: seq<string>, maxCacheSize: int, startIndex: int,
                            load: string -> Option<Img>)
    returns (cache: Cache<Img>)
    ensures Inv(cache, SliceFrom(paths, startIndex), load, []) && !cache.stopEvent
  {
    cache := ImageCache.Init(paths, maxCacheSize, startIndex);
    InitHoldsRemainingPaths(paths, maxCacheSize, startIndex, load);
  }

  /** One turn of the loop at index `i < total` (player_core.py:121-179):
      the stop check, the index fault of `all_paths[i]` for `i < -total`, or
      a complete pass. */
  method Turn<Img(==)>(tm: Timing, cache: Cache<Img>, shown: seq<Img>, i: int,
                       paths: seq<string>, startIndex: int, clock0: int, frameTicks: nat,
                       env: nat -> Tick, load: string -> Option<Img>, ghost remaining: seq<string>)
    returns (tm': Timing, cache': Cache<Img>, shown': seq<Img>, i': int, reason: EndReason)
    requires i == startIndex + |tm.stamps| && i < |paths|
    requires |tm.stamps| > 0 ==> -|paths| <= startIndex
    requires Timed(tm, |tm.stamps|, startIndex, |paths|, clock0, frameTicks, env)
    requires Inv(cache, remaining, load, shown) && !cache.stopEvent && |shown| <= |tm.stamps|
    ensures i' == startIndex + |tm'.stamps| && i' <= |paths|
    ensures |tm'.stamps| > 0 ==> -|paths| <= startIndex
    ensures Timed(tm', |tm'.stamps|, startIndex, |paths|, clock0, frameTicks, env)
    ensures Inv(cache', remaining, load, shown') && !cache'.stopEvent && |shown'| <= |tm'.stamps|
    ensures reason == Exhausted ==> i' == i + 1
    ensures reason == StopRequested ==> i' == i && env(|tm'.stamps|).stopRequested
    ensures reason == IndexFault ==> tm'.stamps == [] && startIndex + |paths| < 0 && !env(0).stopRequested
  {
    tm', cache', shown', i', reason := tm, cache, shown, i, Exhausted;
    var t := env(|tm.stamps|);
    if t.stopRequested {
      reason := StopRequested;
    } else if i < -|paths| {
      // after the pacing sleep, `all_paths[i]` raises: the pass records nothing
      reason := IndexFault;
    } else {
      tm', cache', shown' := Pass(tm, cache, shown, t, startIndex, |paths|, clock0, frameTicks, env, load, remaining);
      i' := i + 1;
    }
  }

  /** The passes from index `i` on: one turn, and the rest of the loop
      after a complete pass (player_core.py:121-179). */
  method PassesFrom<Img(==)>(tm: Timing, cache: Cache<Img>, shown: seq<Img>, i: int,
                             paths: seq<string>, startIndex: int, clock0: int, frameTicks: nat,
                             env: nat -> Tick, load: string -> Option<Img>, ghost remaining: seq<string>)
    returns (tm': Timing, cache': Cache<Img>, shown': seq<Img>, i': int, reason: EndReason)
    requires i == startIndex + |tm.stamps|
    requires |tm.stamps| > 0 ==> -|paths| <= startIndex && i <= |paths|
    requires Timed(tm, |tm.stamps|, startIndex, |paths|, clock0, frameTicks, env)
    requires Inv(cache, remaining, load, shown) && !cache.stopEvent && |shown| <= |tm.stamps|
    ensures i' == startIndex + |tm'.stamps|
    ensures Timed(tm', |tm'.stamps|, startIndex, |paths|, clock0, frameTicks, env)
    ensures Inv(cache', remaining, load, shown') && !cache'.stopEvent && |shown'| <= |tm'.stamps|
    ensures reason == StopRequested ==> env(|tm'.stamps|).stopRequested
    ensures reason == Exhausted ==> i' == |paths| || (startIndex > |paths| && tm'.stamps == [])
    ensures reason == IndexFault ==> tm'.stamps == [] && startIndex + |paths| < 0 && !env(0).stopRequested
    decreases |paths| - i
  {
    if i >= |paths| {
      return tm, cache, shown, i, Exhausted;
    }
    tm', cache', shown', i', reason := Turn(tm, cache, shown, i, paths, startIndex, clock0, frameTicks, env, load, remaining);
    if reason == Exhausted {
      tm', cache', shown', i', reason := PassesFrom(tm', cache', shown', i', paths, startIndex, clock0, frameTicks, env, load, remaining);
    }
  }

  /** The loop of `play_with_cache` over the paths of a session that passed
      the guards (player_core.py:114-179). */
  method Passes<Img(==)>(paths: seq<string>, startIndex: int, maxCacheSize: int,
                         frameTicks: nat, clock0: int,
                         env: nat -> Tick, load: string -> Option<Img>)
    returns (tm: Timing, shown: seq<Img>, cache: Cache<Img>, i: int, reason: EndReason)
    ensures i == startIndex + |tm.stamps|
    ensures Timed(tm, |tm.stamps|, startIndex, |paths|, clock0, frameTicks, env)
    ensures Inv(cache, SliceFrom(paths, startIndex), load, shown) && !cache.stopEvent
    ensures |shown| <= |tm.stamps|
    ensures reason == StopRequested ==> env(|tm.stamps|).stopRequested
    ensures reason == Exhausted ==> i == |paths| || (startIndex > |paths| && tm.stamps == [])
    ensures reason == IndexFault ==> tm.stamps == [] && startIndex + |paths| < 0 && !env(0).stopRequested
  {
    var cache0 := OpenCache(paths, maxCacheSize, startIndex, load);
    var tm0 := Timing(clock0, 0, clock0 - startIndex * frameTicks, [], [], []);
    tm, cache, shown, i, reason := PassesFrom(tm0, cache0, [], startIndex, paths, startIndex, clock0, frameTicks,
                                              env, load, SliceFrom(paths, startIndex));
  }

  /** The loop, then the prefetch steps of the ending pass and `cache.stop()`
      (player_core.py:181), the written one or the corrected one as
      `variant` says. On an `IndexError` the cache is never stopped. */
  method RunPasses<Img(==)>(paths: seq<string>, startIndex: int, maxCacheSize: int,
                            frameTicks: nat, clock0: int, variant: StopVariant,
                            env: nat -> Tick, load: string -> Option<Img>)
    returns (tm: Timing, shown: seq<Img>, cache: Cache<Img>, prefetch: Option<JoinOutcome<Img>>,
             i: int, reason: EndReason)
    ensures i == startIndex + |tm.stamps|
    ensures Timed(tm, |tm.stamps|, startIndex, |paths|, clock0, frameTicks, env)
    ensures Inv(cache, SliceFrom(paths, startIndex), load, shown) && !cache.stopEvent
    ensures |shown| <= |tm.stamps|
    ensures reason == StopRequested ==> env(|tm.stamps|).stopRequested
    ensures reason == Exhausted ==> i == |paths| || (startIndex > |paths| && tm.stamps == [])
    ensures reason == IndexFault ==> tm.stamps == [] && startIndex + |paths| < 0 && !env(0).stopRequested
    ensures prefetch.None? <==> reason == IndexFault
    ensures prefetch.Some? ==> (prefetch.value.Hung? <==> variant == AsWritten && cache.committed && Full(cache))
    ensures prefetch.Some? && variant == AsWritten ==> prefetch.value == Stop(cache, load)
    ensures prefetch.Some? && prefetch.value.Joined? ==>
              prefetch.value.cache.finished && cache.queue <= prefetch.value.cache.queue
  {
    tm, shown, cache, i, reason := Passes(paths, startIndex, maxCacheSize, frameTicks, clock0, env, load);
    prefetch := None;
    if reason != IndexFault {
      var outcome;
      cache, outcome := StopAfterLoop(cache, env(|tm.stamps|).produced, variant, load,
                                      SliceFrom(paths, startIndex), shown);
      prefetch := Some(outcome);
    }
  }

  /** `play_with_cache`: the guards, the prefetch cache, and the pacing loop
      with its pause correction, frame pull, timestamp window and `on_frame`
      calls, then the stop of the cache (the written `stop()` or the
      corrected one) and the average rate. `frameTicks`
      is `frame_duration` on the abstract clock and `clock0` is the clock
      when the loop's anchor is set. */
  method PlayWithCache<Img(==)>(shots: seq<Shot>, startIndex: int, maxCacheSize: int,
                                frameTicks: nat, clock0: int, variant: StopVariant,
                                env: nat -> Tick, load: string -> Option<Img>)
    returns (r: Session<Img>)
    ensures r.Refused? <==> shots == [] || startIndex >= TotalFrames(shots)
    ensures r.Refused? ==> r.reason == if shots == [] then NoShots else StartOutOfRange
    // one `on_frame(i + 1, total, _)` per visited index, from `start_index` on
    ensures r.Played? ==> r.endIndex == startIndex + |r.calls|
    ensures r.Played? ==> forall k :: 0 <= k < |r.calls| ==>
              r.calls[k].current == startIndex + k + 1 && r.calls[k].total == TotalFrames(shots)
    // the loop ends at the first pass whose stop check holds, or at the end
    ensures r.Played? ==> forall k :: 0 <= k < |r.calls| ==> !env(k).stopRequested
    ensures r.Played? && r.endReason == StopRequested ==> env(|r.calls|).stopRequested
    ensures r.Played? && r.endReason == Exhausted ==> r.endIndex == TotalFrames(shots)
    ensures r.Played? && r.endReason == IndexFault ==> r.calls == [] && startIndex + TotalFrames(shots) < 0 && !env(0).stopRequested
    // the instantaneous rate is taken over the last ten timestamps
    ensures r.Played? ==> |r.stamps| == |r.calls|
    ensures r.Played? ==> forall k :: 0 <= k < |r.calls| ==>
              r.calls[k].rate == WindowRate(Window(r.stamps[..k + 1]))
    // frames are never shown early, and pauses push the anchor back
    ensures r.Played? ==> forall a, b :: 0 <= a < b < |r.stamps| ==> r.stamps[a] <= r.stamps[b]
    ensures r.Played? ==> forall k :: 0 <= k < |r.stamps| ==>
              r.stamps[k] >= clock0 + k * frameTicks + PausedThrough(env, k + 1)
    ensures r.Played? ==> r.anchor - r.totalPause == clock0 - startIndex * frameTicks
    ensures r.Played? ==> r.totalPause == PausedThrough(env, |r.calls|)
    ensures r.Played? && r.prefetch.Some? && r.prefetch.value.Joined? ==>
              r.average == AverageRate(r.stamps, r.totalPause)
    ensures r.Played? && (r.prefetch.None? || r.prefetch.value.Hung?) ==> r.average.None?
    // frames shown are the successful loads, in path order, none twice
    ensures r.Played? ==> |r.shown| <= |r.calls|
    ensures r.Played? ==> r.shown <= ImageCache.Loaded(SliceFrom(ExpandPaths(shots), startIndex), load)
    // the cache is stopped unless the loop faulted; the written `stop()`
    // hangs exactly when the producer is waiting for room in a full queue
    ensures r.Played? ==> (r.prefetch.None? <==> r.endReason == IndexFault)
    ensures r.Played? ==> r.shown + r.drained.queue <= ImageCache.Loaded(SliceFrom(ExpandPaths(shots), startIndex), load)
    ensures r.Played? && r.prefetch.Some? ==>
              (r.prefetch.value.Hung? <==> variant == AsWritten && r.drained.committed && Full(r.drained))
    ensures r.Played? ==> ImageCache.WellFormed(r.drained) && !r.drained.stopEvent
    ensures r.Played? && r.prefetch.Some? && variant == AsWritten ==> r.prefetch.value == Stop(r.drained, load)
    ensures r.Played? && r.prefetch.Some? && r.prefetch.value.Joined? ==>
              r.prefetch.value.cache.finished && r.drained.queue <= r.prefetch.value.cache.queue
  {
    var prepared := PrepareSession(shots, startIndex);
    if prepared.Failure? {
      return Refused(prepared.error);
    }
    var paths := prepared.value;
    assert paths == ExpandPaths(shots) && |paths| == TotalFrames(shots);
    var tm, shown, cache, prefetch, i, reason :=
      RunPasses(paths, startIndex, maxCacheSize, frameTicks, clock0, variant, env, load);
    TimedSummary(tm, startIndex, |paths|, clock0, frameTicks, env);
    TakenArePrefix(cache, SliceFrom(paths, startIndex), load, shown);
    QueuedArePrefix(cache, SliceFrom(paths, startIndex), load, shown);
    var average := if prefetch.Some? && prefetch.value.Joined? then AverageRate(tm.stamps, tm.totalPause) else None;
    r := Played(tm.calls, shown, tm.stamps, tm.anchor, tm.totalPause, i, reason, average, cache, prefetch);
  }
}

=== FILE: player_gui.dfy ===
/** The navigation state of the player window (gui.py) with the widgets
    stripped away: the flags the handlers flip, the resume index, the current
    shot and the command queue the handlers fill for the playback core. */
module PlayerGui {
  import opened Wrappers
  import opened Numbers
  import opened Shots
  import Resolver
  import Playback

  /** A message for the playback core: `("seek", i)`, `("trim", (a, b))`,
      `("trim_off", None)` and `("loop", flag)`. */
  datatype Command =
    | Seek(frame: int)
    | Trim(first: int, last: int)
    | TrimOff
    | SetLoop(enabled: bool)

  /** The attributes of `PlayerGUI` the handlers read and write.
      `commandQ` is `None` while the window has no `command_q` attribute:
      only `handle_play` creates it (gui.py:287-288). */
  datatype Gui = Gui(
    modeEpisode: bool,
    loopEnabled: bool,
    resumeFrameIndex: int,
    isPlaying: bool,
    shouldStop: bool,
    shouldPause: bool,
    currentShot: Option<Shot>,
    currentReparto: string,
    loadedShots: seq<Shot>,
    totalEpisodeFrames: int,
    episodeFrameMap: seq<int>,
    commandQ: Option<seq<Command>>,
    currentFrame: int,
    totalFrames: int)

  /** What the playback thread is started with (gui.py:346-362). */
  datatype PlayRequest = PlayRequest(shots: seq<Shot>, startIndex: int, audioOffsetFrames: int,
                                     fps: int, maxCacheSize: int)

  /** The window as `__init__` leaves it (gui.py:15-31, 182-183). */
  function Initial(): (r: Gui)
    // nothing plays, nothing is asked to stop or pause, and no queue exists
    ensures !r.isPlaying && !r.shouldStop && !r.shouldPause && r.commandQ.None?
    // an empty catalogue in episode mode, resuming from the first frame
    ensures r.loadedShots == [] && r.currentShot.None? && r.modeEpisode && r.resumeFrameIndex == 0
    // the dummy counter starts at 0 of a positive total
    ensures r.currentFrame == 0 < r.totalFrames
  {
    Gui(true, false, 0, false, false, false, None, "animazione", [], 0, [], None, 0, 785)
  }

  /** The shots of the current department, in list order. */
  function Filtered(g: Gui): seq<Shot> {
    InReparto(g.loadedShots, g.currentReparto)
  }

  /** `shot.absolute_start` for the window's current catalogue. */
  function AbsStart(g: Gui, s: Shot): int {
    AbsoluteStart(g.loadedShots, g.currentReparto, s)
  }

  /** The last global index of a shot: `absolute_start + (end - start)`. */
  function AbsEnd(g: Gui, s: Shot): int {
    AbsStart(g, s) + (s.endFrame - s.startFrame)
  }

  /** `command_q.put` for each command in turn, when the queue exists
      (`hasattr(self, "command_q")`). */
  function Put(q: Option<seq<Command>>, cs: seq<Command>): (r: Option<seq<Command>>)
    ensures r.Some? <==> q.Some?
    ensures q.Some? ==> r.value == q.value + cs
  {
    match q
    case None => None
    case Some(items) => Some(items + cs)
  }

  /** The queue contents, empty while there is no queue. */
  function Queued(g: Gui): seq<Command> {
    match g.commandQ
    case None => []
    case Some(items) => items
  }

  // ---------------------------------------------------------------------
  // Selecting a shot in the list (gui.py:240-279)
  // ---------------------------------------------------------------------

  /** A click on row `row` of the department's list. */
  function ShotSelected(g: Gui, row: int): (g': Gui)
    ensures !(0 <= row < |Filtered(g)|) ==> g' == g
    ensures 0 <= row < |Filtered(g)| ==>
              g'.(resumeFrameIndex := g.resumeFrameIndex, currentShot := g.currentShot,
                  commandQ := g.commandQ) == g
    ensures 0 <= row < |Filtered(g)| && g.modeEpisode ==>
              var sel := Filtered(g)[row];
              g'.currentShot == g.currentShot
              && g'.resumeFrameIndex == AbsStart(g, sel)
              && g'.commandQ == Put(g.commandQ, [Seek(AbsStart(g, sel))])
    ensures 0 <= row < |Filtered(g)| && !g.modeEpisode ==>
              var sel := Filtered(g)[row];
              g'.currentShot == Some(sel) && g'.resumeFrameIndex == 0
              && g'.commandQ == Put(g.commandQ, [Trim(AbsStart(g, sel), AbsEnd(g, sel)), Seek(AbsStart(g, sel))])
  {
    var shots := Filtered(g);
    if row < 0 || row >= |shots| then g
    else
      var selected := shots[row];
      var absStart := AbsStart(g, selected);
      if g.modeEpisode then
        g.(resumeFrameIndex := absStart, commandQ := Put(g.commandQ, [Seek(absStart)]))
      else
        g.(currentShot := Some(selected), resumeFrameIndex := 0,
           commandQ := Put(g.commandQ, [Trim(absStart, AbsEnd(g, selected)), Seek(absStart)]))
  }

  /** The global start of the first shot with a given id is its offset in
      the playlist, and the whole shot fits in the playlist after it. */
  lemma StartIsOffset(shots: seq<Shot>, row: int)
    requires 0 <= row < |shots| && FirstWithId(shots, row)
    requires forall k :: 0 <= k < |shots| ==> WellFormed(shots[k])
    ensures GlobalIndexOf(shots, shots[row].shotId) == Resolver.Offset(shots, row)
    ensures FrameCount(shots[row]) == shots[row].endFrame - shots[row].startFrame + 1
  {
    GlobalIndexIsPrefixSum(shots, row);
    var before := shots[..row];
    assert forall k :: 0 <= k < |before| ==> before[k] == shots[k];
    SpanSumIsTotal(before);
    WellFormedCountIsSpan(shots[row]);
  }

  /** In episode mode a click seeks to the first frame of the clicked shot in
      the playlist `handle_play` builds: the seek index is the number of
      frames of the shots listed before it, and the path there is the shot's
      `start_frame` path. */
  lemma SelectionSeeksToShotStart(g: Gui, row: int)
    requires g.modeEpisode && 0 <= row < |Filtered(g)|
    requires FirstWithId(Filtered(g), row)
    requires forall k :: 0 <= k < |Filtered(g)| ==> WellFormed(Filtered(g)[k])
    ensures var g' := ShotSelected(g, row);
            g'.resumeFrameIndex == Resolver.Offset(Filtered(g), row)
            && g'.resumeFrameIndex < |Resolver.ExpandPaths(Filtered(g))|
            && Resolver.ExpandPaths(Filtered(g))[g'.resumeFrameIndex]
               == Resolver.FramePath(Filtered(g)[row].framePath, Filtered(g)[row].startFrame)
  {
    var shots := Filtered(g);
    StartIsOffset(shots, row);
    assert 0 < FrameCount(shots[row]);
    Resolver.ExpandPathsAt(shots, row, 0);
    assert ShotSelected(g, row).resumeFrameIndex == AbsStart(g, shots[row]) == Resolver.Offset(shots, row);
  }

  /** In scene mode a click trims to exactly the clicked shot: the trim range
      holds as many indices as the shot has frames, and it runs from the
      shot's first path to its last one. */
  lemma SelectionTrimsToShot(g: Gui, row: int)
    requires !g.modeEpisode && 0 <= row < |Filtered(g)|
    requires FirstWithId(Filtered(g), row)
    requires forall k :: 0 <= k < |Filtered(g)| ==> WellFormed(Filtered(g)[k])
    ensures var sel := Filtered(g)[row];
            var paths := Resolver.ExpandPaths(Filtered(g));
            var a := AbsStart(g, sel);
            var b := AbsEnd(g, sel);
            b - a + 1 == FrameCount(sel)
            && 0 <= a <= b < |paths|
            && paths[a] == Resolver.FramePath(sel.framePath, sel.startFrame)
            && paths[b] == Resolver.FramePath(sel.framePath, sel.endFrame)
  {
    var shots := Filtered(g);
    var sel := shots[row];
    var paths := Resolver.ExpandPaths(shots);
    StartIsOffset(shots, row);
    var a := Resolver.Offset(shots, row);
    assert AbsStart(g, sel) == a;
    assert AbsEnd(g, sel) == a + (sel.endFrame - sel.startFrame);
    Resolver.ExpandPathsAt(shots, row, 0);
    Resolver.ExpandPathsAt(shots, row, sel.endFrame - sel.startFrame);
    assert sel.startFrame + (sel.endFrame - sel.startFrame) == sel.endFrame;
  }

  // ---------------------------------------------------------------------
  // Play (gui.py:281-393)
  // ---------------------------------------------------------------------

  /** The frame numbers `range(start_frame, end_frame + 1)` of each shot in
      turn (gui.py:304-306, 313-315). */
  function FrameMap(shots: seq<Shot>): (r: seq<int>)
    ensures |r| == TotalFrames(shots)
  {
    if shots == [] then []
    else seq(FrameCount(shots[0]), j => shots[0].startFrame + j) + FrameMap(shots[1..])
  }

  /** The frame map lists the frame number of every playlist path: as many
      entries as paths, and global index `Offset(shots, k) + j` is frame
      `start_frame + j` of shot `k`. */
  lemma {:induction false} FrameMapAt(shots: seq<Shot>, k: nat, j: nat)
    requires k < |shots| && j < FrameCount(shots[k])
    ensures |FrameMap(shots)| == TotalFrames(shots) == |Resolver.ExpandPaths(shots)|
    ensures Resolver.Offset(shots, k) + j < TotalFrames(shots)
    ensures FrameMap(shots)[Resolver.Offset(shots, k) + j] == shots[k].startFrame + j
  {
    Resolver.ExpandPathsAt(shots, k, j);
    if k == 0 {
      assert shots[..0] == [];
    } else {
      var tail := shots[1..];
      assert tail[k - 1] == shots[k];
      FrameMapAt(tail, k - 1, j);
      assert shots[..k][1..] == tail[..k - 1];
      assert Resolver.Offset(shots, k) == FrameCount(shots[0]) + Resolver.Offset(tail, k - 1);
    }
  }

  /** The command queue after `handle_play`'s first line. */
  function EnsureQueue(q: Option<seq<Command>>): Option<seq<Command>> {
    if q.None? then Some([]) else q
  }

  /** The commands a fresh start enqueues (gui.py:381-388). */
  function StartCommands(g: Gui): seq<Command>
    requires g.modeEpisode || g.currentShot.Some?
  {
    if g.modeEpisode then [TrimOff]
    else
      var cur := g.currentShot.value;
      [Trim(AbsStart(g, cur), AbsEnd(g, cur)), Seek(AbsStart(g, cur) + g.resumeFrameIndex)]
  }

  /** The play button: the window state afterwards and, on a fresh start, what
      the playback thread is started with. `fps` and `cacheSize` are the
      spinner values. Starting the thread itself is not modelled. */
  function HandlePlay(g: Gui, fps: int, cacheSize: int): (r: (Gui, Option<PlayRequest>))
    // a queue exists from now on, and what was in it stays at its front
    ensures r.0.commandQ.Some? && Queued(g) <= Queued(r.0)
    // a run is requested exactly when nothing plays, shots are loaded and,
    // in scene mode, a shot is current
    ensures r.1.Some? <==> !g.isPlaying && g.loadedShots != [] && (g.modeEpisode || g.currentShot.Some?)
    // while playing, only the pause flag is cleared
    ensures g.isPlaying ==> r.0 == g.(shouldPause := false, commandQ := EnsureQueue(g.commandQ))
    ensures r.1.None? ==> Queued(r.0) == Queued(g) && r.0.shouldStop == g.shouldStop
    ensures r.1.Some? ==>
              Queued(r.0) == Queued(g) + StartCommands(g) && !r.0.shouldStop
              && r.1.value.shots == (if g.modeEpisode then Filtered(g) else [g.currentShot.value])
              && r.0.episodeFrameMap == FrameMap(r.1.value.shots)
              && r.0.totalEpisodeFrames == TotalFrames(r.1.value.shots)
              && r.1.value.startIndex == r.1.value.audioOffsetFrames
              && r.1.value.startIndex
                 == (if g.modeEpisode then g.resumeFrameIndex
                     else AbsStart(g, g.currentShot.value) + g.resumeFrameIndex)
    ensures r.0.modeEpisode == g.modeEpisode && r.0.resumeFrameIndex == g.resumeFrameIndex
            && r.0.currentShot == g.currentShot && r.0.loopEnabled == g.loopEnabled
            && r.0.isPlaying == g.isPlaying && r.0.loadedShots == g.loadedShots
    // a refused start only creates the queue
    ensures r.1.None? && !g.isPlaying ==> r.0 == g.(commandQ := EnsureQueue(g.commandQ))
    // a fresh start writes only the episode map, its total, the stop flag and the queue
    ensures r.1.Some? ==>
              r.0 == g.(episodeFrameMap := FrameMap(r.1.value.shots),
                        totalEpisodeFrames := TotalFrames(r.1.value.shots),
                        shouldStop := false, commandQ := Some(Queued(g) + StartCommands(g)))
  {
    var g1 := g.(commandQ := EnsureQueue(g.commandQ));
    if g1.isPlaying then (g1.(shouldPause := false), None)
    else if g1.loadedShots == [] then (g1, None)
    else if !g1.modeEpisode && g1.currentShot.None? then (g1, None)
    else
      var selected := if g1.modeEpisode then Filtered(g1) else [g1.currentShot.value];
      var frameMap := FrameMap(selected);
      var start := if g1.modeEpisode then g1.resumeFrameIndex
                   else AbsStart(g1, g1.currentShot.value) + g1.resumeFrameIndex;
      var g2 := g1.(episodeFrameMap := frameMap, totalEpisodeFrames := |frameMap|, shouldStop := false,
                    commandQ := Some(Queued(g1) + StartCommands(g1)));
      (g2, Some(PlayRequest(selected, start, start, fps, cacheSize)))
  }

  /** The filtered-department run: in episode mode a fresh start plays exactly
      the loaded shots of the current department, in their original order,
      and the episode length is the sum of their `end - start + 1`. */
  lemma PlayUsesDepartmentShots(g: Gui, fps: int, cacheSize: int)
    requires g.modeEpisode && !g.isPlaying && g.loadedShots != []
    requires forall k :: 0 <= k < |g.loadedShots| ==> WellFormed(g.loadedShots[k])
    ensures var (g', req) := HandlePlay(g, fps, cacheSize);
            req.Some?
            && req.value.shots == InReparto(g.loadedShots, g.currentReparto)
            && g'.totalEpisodeFrames == SpanSum(InReparto(g.loadedShots, g.currentReparto))
            && Queued(g') == Queued(g) + [TrimOff]
  {
    var shots := InReparto(g.loadedShots, g.currentReparto);
    SpanSumIsTotal(shots);
  }

  /** The mixed-department sample: an animation shot of 3 frames, a render
      shot of 5 frames, an animation shot of 2 frames. Playing the animation
      department requests the two animation shots and 5 frames. */
  lemma SampleMixedDepartments()
    ensures var a1 := Shot("s1", "animazione", "a/s1.####.png", 1, 3);
            var r1 := Shot("s1", "render", "r/s1.####.png", 1, 5);
            var a2 := Shot("s2", "animazione", "a/s2.####.png", 1, 2);
            var g := Initial().(loadedShots := [a1, r1, a2]);
            var (g', req) := HandlePlay(g, 25, 150);
            req == Some(PlayRequest([a1, a2], 0, 0, 25, 150))
            && g'.totalEpisodeFrames == 5
            && g'.commandQ == Some([TrimOff])
  {
    var a1 := Shot("s1", "animazione", "a/s1.####.png", 1, 3);
    var r1 := Shot("s1", "render", "r/s1.####.png", 1, 5);
    var a2 := Shot("s2", "animazione", "a/s2.####.png", 1, 2);
    assert "render" != "animazione";
    assert [a1, r1, a2][1..] == [r1, a2];
    assert [r1, a2][1..] == [a2];
    assert [a2][1..] == [];
    assert InReparto([a1, r1, a2], "animazione") == [a1, a2];
    assert [a1, a2][1..] == [a2];
    assert TotalFrames([a1, a2]) == 3 + TotalFrames([a2]);
    var g := Initial().(loadedShots := [a1, r1, a2]);
    var (g', req) := HandlePlay(g, 25, 150);
    assert Filtered(g) == [a1, a2];
    assert req == Some(PlayRequest([a1, a2], 0, 0, 25, 150));
    assert g'.totalEpisodeFrames == 5;
    var none: seq<Command> := [];
    assert none + [TrimOff] == [TrimOff];
    assert g'.commandQ == Some([TrimOff]);
  }

  // ---------------------------------------------------------------------
  // Loop, stop and pause (gui.py:395-480)
  // ---------------------------------------------------------------------

  /** The loop button (gui.py:395-436). */
  function HandleLoopToggle(g: Gui): (g': Gui)
    ensures g'.loopEnabled == !g.loopEnabled
    ensures g'.commandQ == Put(g.commandQ, [SetLoop(g'.loopEnabled)])
    ensures g'.(loopEnabled := g.loopEnabled, commandQ := g.commandQ) == g
  {
    var enabled := !g.loopEnabled;
    g.(loopEnabled := enabled, commandQ := Put(g.commandQ, [SetLoop(enabled)]))
  }

  /** Pressing loop twice restores the flag and tells the core both values,
      the new one first. */
  lemma LoopToggleTwice(g: Gui)
    ensures var g' := HandleLoopToggle(HandleLoopToggle(g));
            g'.loopEnabled == g.loopEnabled
            && g'.commandQ == Put(g.commandQ, [SetLoop(!g.loopEnabled), SetLoop(g.loopEnabled)])
            && g'.(commandQ := g.commandQ) == g
  {
    if g.commandQ.Some? {
      var q := g.commandQ.value;
      assert q + [SetLoop(!g.loopEnabled)] + [SetLoop(g.loopEnabled)]
             == q + [SetLoop(!g.loopEnabled), SetLoop(g.loopEnabled)];
    }
  }

  /** The stop button as written (gui.py:438-476): pause cleared, playback
      marked stopped, index back to 0. The flag `play_with_cache` polls,
      `should_stop`, is left as it was. */
  function HandleStop(g: Gui): (g': Gui)
    ensures !g'.shouldPause && !g'.isPlaying && g'.resumeFrameIndex == 0
    ensures g'.shouldStop == g.shouldStop
    ensures g'.(shouldPause := g.shouldPause, isPlaying := g.isPlaying,
                resumeFrameIndex := g.resumeFrameIndex) == g
  {
    g.(shouldPause := false, isPlaying := false, resumeFrameIndex := 0)
  }

  /** The stop button as its description intends ("terminates the loop"):
      the same updates, plus raising `should_stop` so the running
      `play_with_cache` ends at the top of its next pass. */
  function HandleStopRequestingHalt(g: Gui): (g': Gui)
    ensures g'.shouldStop && !g'.shouldPause && !g'.isPlaying && g'.resumeFrameIndex == 0
    ensures g' == HandleStop(g).(shouldStop := true)
    ensures g'.commandQ == g.commandQ && g'.modeEpisode == g.modeEpisode
  {
    g.(shouldPause := false, isPlaying := false, resumeFrameIndex := 0, shouldStop := true)
  }

  /** The pause button (gui.py:478-480): only a playing window pauses. */
  function HandlePause(g: Gui): (g': Gui)
    ensures g'.shouldPause <==> g.shouldPause || g.isPlaying
    ensures g'.(shouldPause := g.shouldPause) == g
  {
    if g.isPlaying then g.(shouldPause := true) else g
  }

  /** Play after pause resumes: pressing play while playing undoes the pause
      and leaves the window as if pause had never been pressed. */
  lemma PlayAfterPause(g: Gui, fps: int, cacheSize: int)
    requires g.isPlaying
    ensures var (g', req) := HandlePlay(HandlePause(g), fps, cacheSize);
            req.None? && !g'.shouldPause && g' == HandlePlay(g, fps, cacheSize).0
            && HandlePause(g').shouldPause
  {
  }

  /** What the playback thread does before it calls `play_with_cache`
      (gui.py:341-343). The call passes two keyword arguments that
      `play_with_cache` does not take, so it fails at once; the failure is
      logged and the thread ends with these values still in place. */
  function ThreadEntry(g: Gui): (g': Gui)
    ensures g'.isPlaying && !g'.shouldStop && !g'.shouldPause
    ensures g'.(isPlaying := g.isPlaying, shouldStop := g.shouldStop, shouldPause := g.shouldPause) == g
  {
    g.(isPlaying := true, shouldStop := false, shouldPause := false)
  }

  /** Once the thread has started, the play button requests nothing more
      until stop is pressed. */
  lemma SecondPlayRequestsNothing(g: Gui, fps: int, cacheSize: int)
    ensures var g1 := ThreadEntry(HandlePlay(g, fps, cacheSize).0);
            HandlePlay(g1, fps, cacheSize).1.None?
            && HandlePlay(HandleStop(g1), fps, cacheSize).1.Some?
               == (g.loadedShots != [] && (g.modeEpisode || g.currentShot.Some?))
  {
  }

  /** The `on_frame` callback of a run (gui.py:331-335): the window keeps
      the 1-based index of the frame just shown as its resume index. */
  function FrameShown(g: Gui, current: int): (g': Gui)
    ensures g'.resumeFrameIndex == current
    ensures g'.(resumeFrameIndex := g.resumeFrameIndex) == g
  {
    g.(resumeFrameIndex := current)
  }

  /** The callbacks of a whole run, in order. */
  function ShowAll(g: Gui, calls: seq<Playback.FrameCall>): Gui
    decreases |calls|
  {
    if calls == [] then g else ShowAll(FrameShown(g, calls[0].current), calls[1..])
  }

  /** After a run from `startIndex` that reported `n > 0` frames, the window
      resumes at `startIndex + n`: in episode mode the next start index is
      the one after the last frame shown. */
  lemma {:induction false} ResumeFollowsRun(g: Gui, calls: seq<Playback.FrameCall>, startIndex: int)
    requires calls != []
    requires forall k :: 0 <= k < |calls| ==> calls[k].current == startIndex + k + 1
    ensures ShowAll(g, calls).resumeFrameIndex == startIndex + |calls|
    ensures ShowAll(g, calls).(resumeFrameIndex := g.resumeFrameIndex) == g
    decreases |calls|
  {
    if |calls| > 1 {
      var rest := calls[1..];
      assert forall k :: 0 <= k < |rest| ==> rest[k].current == (startIndex + 1) + k + 1 by {
        forall k | 0 <= k < |rest| ensures rest[k].current == (startIndex + 1) + k + 1 {
          assert rest[k] == calls[k + 1];
        }
      }
      ResumeFollowsRun(FrameShown(g, calls[0].current), rest, startIndex + 1);
    }
  }

  /** The events the window reacts to: its handlers, the timer, and the
      playback thread's own updates. */
  datatype Event =
    | Select(row: int)
    | Play(fps: int, cacheSize: int)
    | ToggleLoop
    | Stop
    | Pause
    | ToggleMode
    | FrameTick
    | ThreadStart
    | Shown(current: int)

  /** The window's reaction to one event. `asWritten` selects the stop
      button as written (`HandleStop`) instead of the corrected one. */
  function Apply(g: Gui, e: Event, asWritten: bool): Gui {
    match e
    case Select(row) => ShotSelected(g, row)
    case Play(fps, cacheSize) => HandlePlay(g, fps, cacheSize).0
    case ToggleLoop => HandleLoopToggle(g)
    case Stop => if asWritten then HandleStop(g) else HandleStopRequestingHalt(g)
    case Pause => HandlePause(g)
    case ToggleMode => ToggleEpisodeMode(g)
    case FrameTick => UpdateFrameCounter(g)
    case ThreadStart => ThreadEntry(g)
    case Shown(current) => FrameShown(g, current)
  }

  function ApplyAll(g: Gui, events: seq<Event>, asWritten: bool): Gui
    decreases |events|
  {
    if events == [] then g else ApplyAll(Apply(g, events[0], asWritten), events[1..], asWritten)
  }

  /** With the stop button as written, no sequence of events ever raises
      `should_stop`: the stop check at the top of each pass of
      `play_with_cache` never holds for a run the window starts, whatever
      buttons are pressed. */
  lemma {:induction false} NoHandlerRaisesStopFlag(g: Gui, events: seq<Event>)
    requires !g.shouldStop
    ensures !ApplyAll(g, events, true).shouldStop
    decreases |events|
  {
    if events != [] {
      NoHandlerRaisesStopFlag(Apply(g, events[0], true), events[1..]);
    }
  }

  /** Whether an event starts a run (and so lowers `should_stop`). */
  predicate Restarts(e: Event) {
    e.Play? || e.ThreadStart?
  }

  /** With the corrected stop button, a press of stop raises `should_stop`
      and it stays raised whatever else is pressed until a run is started
      again: the running loop sees it at the top of its next pass. */
  lemma {:induction false} StopHoldsUntilRestart(g: Gui, before: seq<Event>, after: seq<Event>)
    requires forall k :: 0 <= k < |after| ==> !Restarts(after[k])
    ensures ApplyAll(g, before + [Stop] + after, false).shouldStop
    decreases |before|
  {
    if before == [] {
      assert ([Stop] + after)[1..] == after;
      StopFlagStaysUp(HandleStopRequestingHalt(g), after);
    } else {
      assert (before + [Stop] + after)[1..] == before[1..] + [Stop] + after;
      StopHoldsUntilRestart(Apply(g, before[0], false), before[1..], after);
    }
  }

  lemma {:induction false} StopFlagStaysUp(g: Gui, events: seq<Event>)
    requires g.shouldStop
    requires forall k :: 0 <= k < |events| ==> !Restarts(events[k])
    ensures ApplyAll(g, events, false).shouldStop
    decreases |events|
  {
    if events != [] {
      assert !Restarts(events[0]);
      assert forall k :: 0 <= k < |events| - 1 ==> events[1..][k] == events[k + 1];
      StopFlagStaysUp(Apply(g, events[0], false), events[1..]);
    }
  }

  /** The concrete case: play, then stop. The run is requested, and after the
      stop the flag the run polls is still down. */
  lemma StopAfterPlayLeavesRunGoing()
    ensures var s := Shot("s1", "animazione", "a/s1.####.png", 1, 3);
            var g := Initial().(loadedShots := [s]);
            var (g1, req) := HandlePlay(g, 25, 150);
            req.Some? && !HandleStop(g1).shouldStop && HandleStopRequestingHalt(g1).shouldStop
  {
    var s := Shot("s1", "animazione", "a/s1.####.png", 1, 3);
    assert [s][1..] == [];
  }

  // ---------------------------------------------------------------------
  // Episode / scene switch (gui.py:483-526)
  // ---------------------------------------------------------------------

  /** Whether global index `idx` lies in the span of shot `sh`:
      `absolute_start <= idx <= absolute_start + (end - start)`. */
  predicate Spans(g: Gui, sh: Shot, idx: int) {
    AbsStart(g, sh) <= idx <= AbsEnd(g, sh)
  }

  /** The first of `shots[k..]` whose span holds `idx` (gui.py:488-491). */
  function ShotAtFrom(g: Gui, shots: seq<Shot>, k: nat, idx: int): (r: Option<Shot>)
    requires k <= |shots|
    ensures r.Some? ==> exists m :: k <= m < |shots| && shots[m] == r.value && Spans(g, shots[m], idx)
                                    && forall p :: k <= p < m ==> !Spans(g, shots[p], idx)
    ensures r.None? ==> forall p :: k <= p < |shots| ==> !Spans(g, shots[p], idx)
    decreases |shots| - k
  {
    if k == |shots| then None
    else if Spans(g, shots[k], idx) then Some(shots[k])
    else ShotAtFrom(g, shots, k + 1, idx)
  }

  /** The loaded shot a switch to scene mode makes current for `idx`. */
  function ShotAt(g: Gui, idx: int): (r: Option<Shot>)
    ensures r.Some? ==> exists m :: 0 <= m < |g.loadedShots| && g.loadedShots[m] == r.value
                                    && Spans(g, r.value, idx)
                                    && forall p :: 0 <= p < m ==> !Spans(g, g.loadedShots[p], idx)
    ensures r.None? <==> forall p :: 0 <= p < |g.loadedShots| ==> !Spans(g, g.loadedShots[p], idx)
  {
    ShotAtFrom(g, g.loadedShots, 0, idx)
  }

  /** The local index of global index `idx` in shot `sh`, clamped to the
      shot (gui.py:499-505). */
  function LocalIndex(g: Gui, sh: Shot, idx: int): (r: int)
    ensures 0 <= r
    ensures WellFormed(sh) ==> r <= sh.endFrame - sh.startFrame
    ensures Spans(g, sh, idx) ==> AbsStart(g, sh) + r == idx
  {
    Max(0, Min(idx - AbsStart(g, sh), sh.endFrame - sh.startFrame))
  }

  /** The mode button from episode mode (gui.py:485-505, 512-526): the first
      loaded shot spanning the resume index becomes current (the old one
      stays when none does), the index becomes a clamped local one, and the
      queue is told the shot's range and the seek target. */
  function ToScene(g: Gui): (g': Gui)
    ensures !g'.modeEpisode
    ensures var found := ShotAt(g, g.resumeFrameIndex);
            g'.currentShot == if found.Some? then found else g.currentShot
    ensures g'.currentShot.Some? ==>
              g'.resumeFrameIndex == LocalIndex(g, g'.currentShot.value, g.resumeFrameIndex)
    ensures g'.currentShot.None? ==> g'.resumeFrameIndex == g.resumeFrameIndex && g'.commandQ == g.commandQ
    ensures g.commandQ.None? ==> g'.commandQ.None?
    ensures g.commandQ.Some? && g'.currentShot.Some? ==>
              var cur := g'.currentShot.value;
              Queued(g') == Queued(g) + [Trim(AbsStart(g, cur), AbsEnd(g, cur)),
                                         Seek(AbsStart(g, cur) + g'.resumeFrameIndex)]
    ensures g'.(modeEpisode := g.modeEpisode, currentShot := g.currentShot,
                resumeFrameIndex := g.resumeFrameIndex, commandQ := g.commandQ) == g
  {
    var found := ShotAt(g, g.resumeFrameIndex);
    var current := if found.Some? then found else g.currentShot;
    match current
    case None => g.(modeEpisode := false)
    case Some(sh) =>
      var local := LocalIndex(g, sh, g.resumeFrameIndex);
      var queue := Put(g.commandQ, [Trim(AbsStart(g, sh), AbsEnd(g, sh)), Seek(AbsStart(g, sh) + local)]);
      g.(modeEpisode := false, currentShot := current, resumeFrameIndex := local, commandQ := queue)
  }

  /** The mode button from scene mode (gui.py:485, 493-496, 512-513): the
      current shot stays, its local index gains the shot's absolute start,
      and the queue is told to drop the trim. */
  function ToEpisode(g: Gui): (g': Gui)
    ensures g'.modeEpisode && g'.currentShot == g.currentShot
    ensures g.currentShot.Some? ==>
              g'.resumeFrameIndex == AbsStart(g, g.currentShot.value) + g.resumeFrameIndex
    ensures g.currentShot.None? ==> g'.resumeFrameIndex == g.resumeFrameIndex
    ensures g.commandQ.None? ==> g'.commandQ.None?
    ensures g.commandQ.Some? ==> Queued(g') == Queued(g) + [TrimOff]
    ensures g'.(modeEpisode := g.modeEpisode, resumeFrameIndex := g.resumeFrameIndex,
                commandQ := g.commandQ) == g
  {
    var resume := match g.currentShot
      case None => g.resumeFrameIndex
      case Some(sh) => AbsStart(g, sh) + g.resumeFrameIndex;
    g.(modeEpisode := true, resumeFrameIndex := resume, commandQ := Put(g.commandQ, [TrimOff]))
  }

  /** The mode button. Switching to scene mode makes current the first loaded
      shot spanning the resume index (or keeps the old one when none does)
      and turns the global index into a clamped local one; switching back
      turns the local index into a global one. The queue is told the new
      range. */
  function ToggleEpisodeMode(g: Gui): (g': Gui)
    ensures g'.modeEpisode == !g.modeEpisode
    ensures var found := ShotAt(g, g.resumeFrameIndex);
            g'.currentShot == if g.modeEpisode && found.Some? then found else g.currentShot
    // to scene: the local index of the shot found
    ensures g.modeEpisode && g'.currentShot.Some? ==>
              g'.resumeFrameIndex == LocalIndex(g, g'.currentShot.value, g.resumeFrameIndex)
    // to episode: local index plus the shot's start
    ensures !g.modeEpisode && g.currentShot.Some? ==>
              g'.resumeFrameIndex == AbsStart(g, g.currentShot.value) + g.resumeFrameIndex
    ensures g'.currentShot.None? ==> g'.resumeFrameIndex == g.resumeFrameIndex
    ensures g.commandQ.None? ==> g'.commandQ.None?
    ensures g.commandQ.Some? && g'.modeEpisode ==> Queued(g') == Queued(g) + [TrimOff]
    ensures g.commandQ.Some? && !g'.modeEpisode && g'.currentShot.Some? ==>
              var cur := g'.currentShot.value;
              Queued(g') == Queued(g) + [Trim(AbsStart(g, cur), AbsEnd(g, cur)),
                                         Seek(AbsStart(g, cur) + g'.resumeFrameIndex)]
    ensures !g'.modeEpisode && g'.currentShot.None? ==> g'.commandQ == g.commandQ
    ensures g'.loadedShots == g.loadedShots && g'.currentReparto == g.currentReparto
            && g'.isPlaying == g.isPlaying && g'.shouldStop == g.shouldStop
            && g'.shouldPause == g.shouldPause && g'.loopEnabled == g.loopEnabled
    // nothing but the mode, the current shot, the resume index and the queue changes
    ensures g'.(modeEpisode := g.modeEpisode, currentShot := g.currentShot,
                resumeFrameIndex := g.resumeFrameIndex, commandQ := g.commandQ) == g
  {
    if g.modeEpisode then ToScene(g) else ToEpisode(g)
  }

  /** Episode -> scene -> episode from an index inside some loaded shot's
      span gives back the same global index. */
  lemma EpisodeSceneEpisode(g: Gui)
    requires g.modeEpisode && ShotAt(g, g.resumeFrameIndex).Some?
    ensures var g' := ToggleEpisodeMode(ToggleEpisodeMode(g));
            g'.modeEpisode && g'.resumeFrameIndex == g.resumeFrameIndex
            && g'.currentShot == ShotAt(g, g.resumeFrameIndex)
  {
  }

  /** A catalogue of one department whose shots have distinct ids and
      non-empty ranges: the spans of its shots tile the playlist. */
  predicate Catalogue(g: Gui) {
    && (forall k :: 0 <= k < |g.loadedShots| ==> g.loadedShots[k].reparto == g.currentReparto)
    && (forall k :: 0 <= k < |g.loadedShots| ==> WellFormed(g.loadedShots[k]))
    && (forall a, b :: 0 <= a < b < |g.loadedShots| ==> g.loadedShots[a].shotId != g.loadedShots[b].shotId)
  }

  lemma {:induction false} InRepartoKeepsAll(shots: seq<Shot>, reparto: string)
    requires forall k :: 0 <= k < |shots| ==> shots[k].reparto == reparto
    ensures InReparto(shots, reparto) == shots
  {
    if shots != [] {
      InRepartoKeepsAll(shots[1..], reparto);
    }
  }

  lemma {:induction false} SpanSumSnoc(shots: seq<Shot>, k: nat)
    requires k < |shots|
    ensures SpanSum(shots[..k + 1]) == SpanSum(shots[..k]) + SpanLength(shots[k])
    decreases k
  {
    if k == 0 {
      assert shots[..1] == [shots[0]];
      assert shots[..1][1..] == [];
    } else {
      var tail := shots[1..];
      SpanSumSnoc(tail, k - 1);
      assert shots[..k + 1][1..] == tail[..k];
      assert shots[..k][1..] == tail[..k - 1];
    }
  }

  /** In a catalogue the start of shot `k` is the sum of the spans before it,
      and starts grow by at least one from shot to shot. */
  lemma CatalogueStart(g: Gui, k: nat)
    requires Catalogue(g) && k < |g.loadedShots|
    ensures AbsStart(g, g.loadedShots[k]) == SpanSum(g.loadedShots[..k])
  {
    InRepartoKeepsAll(g.loadedShots, g.currentReparto);
    GlobalIndexIsPrefixSum(g.loadedShots, k);
  }

  lemma {:induction false} CatalogueStartsGrow(g: Gui, m: nat, k: nat)
    requires Catalogue(g) && m < k < |g.loadedShots|
    ensures AbsEnd(g, g.loadedShots[m]) < AbsStart(g, g.loadedShots[k])
    decreases k - m
  {
    CatalogueStart(g, m);
    CatalogueStart(g, m + 1);
    SpanSumSnoc(g.loadedShots, m);
    if m + 1 < k {
      CatalogueStartsGrow(g, m + 1, k);
      assert WellFormed(g.loadedShots[m + 1]);
    }
  }

  /** In a catalogue, the switch to scene mode picks the very shot whose
      span holds the index. */
  lemma ShotAtFindsOwnShot(g: Gui, k: nat, idx: int)
    requires Catalogue(g) && k < |g.loadedShots| && Spans(g, g.loadedShots[k], idx)
    ensures ShotAt(g, idx) == Some(g.loadedShots[k])
  {
    forall p | 0 <= p < k
      ensures !Spans(g, g.loadedShots[p], idx)
    {
      CatalogueStartsGrow(g, p, k);
    }
  }

  /** Scene -> episode -> scene on a catalogue, from a local index inside the
      current shot, gives back the same shot and the same local index. */
  lemma SceneEpisodeScene(g: Gui, k: nat)
    requires !g.modeEpisode && Catalogue(g) && k < |g.loadedShots|
    requires g.currentShot == Some(g.loadedShots[k])
    requires 0 <= g.resumeFrameIndex <= g.loadedShots[k].endFrame - g.loadedShots[k].startFrame
    ensures var g' := ToggleEpisodeMode(ToggleEpisodeMode(g));
            !g'.modeEpisode && g'.resumeFrameIndex == g.resumeFrameIndex
            && g'.currentShot == g.currentShot
  {
    var g1 := ToggleEpisodeMode(g);
    assert g1.resumeFrameIndex == AbsStart(g, g.loadedShots[k]) + g.resumeFrameIndex;
    assert g1.loadedShots == g.loadedShots && g1.currentReparto == g.currentReparto;
    assert Catalogue(g1);
    ShotAtFindsOwnShot(g1, k, g1.resumeFrameIndex);
  }

  /** The sample catalogue: s1 (frames 1-3) then s2 (frames 1-2). Global
      index 4 is local index 1 of s2, and switching back gives 4. */
  lemma SampleToggle()
    ensures var s1 := Shot("s1", "animazione", "a/s1.####.png", 1, 3);
            var s2 := Shot("s2", "animazione", "a/s2.####.png", 1, 2);
            var g := Initial().(loadedShots := [s1, s2], resumeFrameIndex := 4);
            var g1 := ToggleEpisodeMode(g);
            var g2 := ToggleEpisodeMode(g1);
            !g1.modeEpisode && g1.currentShot == Some(s2) && g1.resumeFrameIndex == 1
            && g2.modeEpisode && g2.resumeFrameIndex == 4
  {
    var s1 := Shot("s1", "animazione", "a/s1.####.png", 1, 3);
    var s2 := Shot("s2", "animazione", "a/s2.####.png", 1, 2);
    var g := Initial().(loadedShots := [s1, s2], resumeFrameIndex := 4);
    SampleAbsoluteStarts();
    assert AbsStart(g, s1) == 0 && AbsStart(g, s2) == 3;
    assert !Spans(g, s1, 4) && Spans(g, s2, 4);
    assert ShotAt(g, 4) == Some(s2);
    EpisodeSceneEpisode(g);
  }

  /** Before the first press of play there is no queue, so selecting shots,
      toggling loop or mode enqueue nothing anywhere. */
  lemma NoQueueBeforeFirstPlay(row: int)
    ensures ShotSelected(Initial(), row).commandQ.None?
    ensures HandleLoopToggle(Initial()).commandQ.None?
    ensures ToggleEpisodeMode(Initial()).commandQ.None?
  {
  }

  // ---------------------------------------------------------------------
  // Frame counter timer (gui.py:196-199)
  // ---------------------------------------------------------------------

  /** One timer tick: the counter advances and wraps to 0 past the total. */
  function UpdateFrameCounter(g: Gui): (g': Gui)
    ensures g.currentFrame >= 0 ==> 0 <= g'.currentFrame
    ensures g'.currentFrame == g.currentFrame + 1 || g'.currentFrame == 0
    ensures g'.currentFrame <= g.totalFrames || g'.currentFrame == 0
    ensures g'.(currentFrame := g.currentFrame) == g
  {
    var next := g.currentFrame + 1;
    g.(currentFrame := if next > g.totalFrames then 0 else next)
  }

  function Ticks(g: Gui, n: nat): Gui
    decreases n
  {
    if n == 0 then g else Ticks(UpdateFrameCounter(g), n - 1)
  }

  /** From frame `c` in range, `n` ticks that stay within the total just
      count up. */
  lemma {:induction false} TicksCountUp(g: Gui, n: nat)
    requires 0 <= g.currentFrame && g.currentFrame + n <= g.totalFrames
    ensures Ticks(g, n).currentFrame == g.currentFrame + n
    ensures Ticks(g, n).totalFrames == g.totalFrames
    decreases n
  {
    if n > 0 {
      TicksCountUp(UpdateFrameCounter(g), n - 1);
    }
  }

  /** The counter shows every value `0..total` in turn and comes back to 0
      after `total + 1` ticks. */
  lemma CounterPeriod(g: Gui)
    requires g.currentFrame == 0 && g.totalFrames >= 0
    ensures Ticks(g, g.totalFrames + 1).currentFrame == 0
  {
    TicksCountUp(g, g.totalFrames);
    TicksSplit(g, g.totalFrames, 1);
  }

  lemma {:induction false} TicksSplit(g: Gui, a: nat, b: nat)
    ensures Ticks(g, a + b) == Ticks(Ticks(g, a), b)
    decreases a
  {
    if a > 0 {
      TicksSplit(UpdateFrameCounter(g), a - 1, b);
    }
  }
}

=== FILE: resolver.dfy ===
/** The frame path resolver and the guards at the top of `play_with_cache`
    (player_core.py:82-98). */
module Resolver {
  import opened Wrappers
  import opened Shots
  import Decimal
  import Template

  /** The token a path template carries where the frame number goes. */
  const Placeholder: string := "####"

  /** The path of one frame: every placeholder in the template replaced by
      the zero-padded frame number (player_core.py:91-92). */
  function FramePath(template: string, frame: int): (r: string)
    // a frame number below 10000 takes exactly the placeholder's four places
    ensures 0 <= frame < 10000 ==> |r| == |template|
  {
    Template.Replace(template, Placeholder, Decimal.FrameNumberText(frame))
  }

  /** The paths of one shot, in ascending frame order. */
  function ShotPaths(s: Shot): seq<string> {
    seq(FrameCount(s), j => FramePath(s.framePath, s.startFrame + j))
  }

  /** All frame paths of a playlist, shot after shot (player_core.py:88-93). */
  function ExpandPaths(shots: seq<Shot>): (r: seq<string>)
    ensures |r| == TotalFrames(shots)
  {
    if shots == [] then [] else ShotPaths(shots[0]) + ExpandPaths(shots[1..])
  }

  /** The global index of the first frame of `shots[k]` in the expansion. */
  function Offset(shots: seq<Shot>, k: nat): nat
    requires k <= |shots|
  {
    TotalFrames(shots[..k])
  }


  lemma {:induction false} ExpandPathsAppend(a: seq<Shot>, b: seq<Shot>)
    ensures ExpandPaths(a + b) == ExpandPaths(a) + ExpandPaths(b)
  {
    if a == [] {
      assert a + b == b;
    } else {
      assert (a + b)[1..] == a[1..] + b;
      ExpandPathsAppend(a[1..], b);
    }
  }

  /** Global index `Offset(shots, k) + j` holds frame `start_frame + j` of
      shot `k`: the expansion is ordered by shot, then by ascending frame. */
  lemma {:induction false} ExpandPathsAt(shots: seq<Shot>, k: nat, j: nat)
    requires k < |shots| && j < FrameCount(shots[k])
    ensures Offset(shots, k) + j < |ExpandPaths(shots)|
    ensures ExpandPaths(shots)[Offset(shots, k) + j]
            == FramePath(shots[k].framePath, shots[k].startFrame + j)
  {
    if k == 0 {
      assert shots[..0] == [];
    } else {
      var tail := shots[1..];
      assert tail[k - 1] == shots[k];
      ExpandPathsAt(tail, k - 1, j);
      assert shots[..k][1..] == tail[..k - 1];
      assert Offset(shots, k) == FrameCount(shots[0]) + Offset(tail, k - 1);
      assert |ShotPaths(shots[0])| == FrameCount(shots[0]);
    }
  }

  /** Every global index lies in exactly the shot the offsets say. */
  lemma {:induction false} Locate(shots: seq<Shot>, g: int) returns (k: nat, j: nat)
    requires 0 <= g < TotalFrames(shots)
    ensures k < |shots| && j < FrameCount(shots[k])
    ensures g == Offset(shots, k) + j
  {
    if g < FrameCount(shots[0]) {
      k, j := 0, g;
      assert shots[..0] == [];
    } else {
      var tail := shots[1..];
      var k', j' := Locate(tail, g - FrameCount(shots[0]));
      k, j := k' + 1, j';
      assert shots[..k][1..] == tail[..k'];
    }
  }

  /** The nested loop of player_core.py:88-93, appending one path at a time. */
  method ResolveFramePaths(shots: seq<Shot>) returns (paths: seq<string>)
    ensures |paths| == TotalFrames(shots)
    ensures paths == ExpandPaths(shots)
  {
    paths := [];
    var k := 0;
    while k < |shots|
      invariant 0 <= k <= |shots|
      invariant paths == ExpandPaths(shots[..k])
    {
      var shot := shots[k];
      var frame := shot.startFrame;
      var done: seq<string> := [];
      while frame < shot.endFrame + 1
        invariant shot.startFrame <= frame
        invariant frame <= shot.endFrame + 1 || frame == shot.startFrame
        invariant done == ShotPaths(shot)[..frame - shot.startFrame]
        decreases shot.endFrame + 1 - frame
      {
        done := done + [FramePath(shot.framePath, frame)];
        frame := frame + 1;
      }
      assert done == ShotPaths(shot);
      assert shots[..k + 1] == shots[..k] + [shot];
      ExpandPathsAppend(shots[..k], [shot]);
      assert ExpandPaths([shot]) == ShotPaths(shot) by {
        assert [shot][1..] == [];
      }
      paths := paths + done;
      k := k + 1;
    }
    assert shots[..k] == shots;
  }

  /** Why `play_with_cache` returns before creating a cache or touching audio. */
  datatype Refusal = NoShots | StartOutOfRange

  /** The two guards of `play_with_cache`: an empty shot list, then a start
      index at or beyond the number of frames (player_core.py:82-84, 95-98).
      A negative start index passes, as in the source. */
  function PrepareSession(shots: seq<Shot>, startIndex: int): (r: Result<seq<string>, Refusal>)
    ensures r == Failure(NoShots) <==> shots == []
    ensures r == Failure(StartOutOfRange) <==> shots != [] && startIndex >= TotalFrames(shots)
    ensures r.Success? ==> |r.value| == TotalFrames(shots) && startIndex < |r.value|
    ensures r.Success? ==> r.value == ExpandPaths(shots)
  {
    if shots == [] then Failure(NoShots)
    else
      var paths := ExpandPaths(shots);
      if startIndex >= |paths| then Failure(StartOutOfRange) else Success(paths)
  }

  /** The two-shot sample: global index 4 is the second frame of `s2`. */
  lemma SamplePlaylist()
    ensures var s1 := Shot("s1", "animazione", "a/s1.####.png", 1, 3);
            var s2 := Shot("s2", "animazione", "a/s2.####.png", 1, 2);
            |ExpandPaths([s1, s2])| == 5
            && ExpandPaths([s1, s2])[4] == FramePath("a/s2.####.png", 2)
  {
    var s1 := Shot("s1", "animazione", "a/s1.####.png", 1, 3);
    var s2 := Shot("s2", "animazione", "a/s2.####.png", 1, 2);
    ExpandPathsAt([s1, s2], 1, 1);
    assert [s1, s2][..1] == [s1];
    assert [s1][1..] == [];
    assert [s1, s2][1..] == [s2];
    assert [s2][1..] == [];
    assert TotalFrames([s1, s2]) == 3 + TotalFrames([s2]);
  }

  /** A template with one placeholder and a one-digit frame: the digit
      goes in the last of the four places, zeros in the others. */
  lemma FramePathOneDigit(a: string, b: string, n: int)
    requires forall k :: 0 <= k < |a| ==> a[k] != '#'
    requires forall k :: 0 <= k < |b| ==> b[k] != '#'
    requires 0 <= n < 10
    ensures FramePath(a + Placeholder + b, n) == a + ['0', '0', '0', Decimal.DigitChar(n)] + b
  {
    Decimal.FrameNumberTextOneDigit(n);
    Template.SinglePlaceholder(a, b, Placeholder, ['0', '0', '0', Decimal.DigitChar(n)]);
  }

  /** Frame 2 of the template `a/s2.####.png` is `a/s2.0002.png`. */
  lemma SampleFramePath()
    ensures FramePath("a/s2.####.png", 2) == "a/s2.0002.png"
  {
    var a, b := "a/s2.", ".png";
    assert a + Placeholder + b == "a/s2.####.png";
    FramePathOneDigit(a, b, 2);
    assert a + ['0', '0', '0', Decimal.DigitChar(2)] + b == "a/s2.0002.png";
  }
}

=== FILE: shots.dfy ===
/** The shot catalogue: shots, their frame counts, the department filter and
    the global start index the player's list panel computes for a shot. */
module Shots {

  /** One row of the shot list (player_core.py:14-20): an id, a department
      (`reparto`), a path template and an inclusive frame range. */
  datatype Shot = Shot(shotId: string, reparto: string, framePath: string, startFrame: int, endFrame: int)

  predicate WellFormed(s: Shot) {
    s.startFrame <= s.endFrame
  }

  /** How many frame numbers `range(start_frame, end_frame + 1)` yields. */
  function FrameCount(s: Shot): nat {
    if s.endFrame < s.startFrame then 0 else s.endFrame - s.startFrame + 1
  }

  /** The length the player panel uses, `end_frame - start_frame + 1`, which is
      not clamped at zero for a reversed range. */
  function SpanLength(s: Shot): int {
    s.endFrame - s.startFrame + 1
  }

  lemma WellFormedCountIsSpan(s: Shot)
    requires WellFormed(s)
    ensures FrameCount(s) == SpanLength(s) >= 1
  {
  }

  /** Frames in a playlist: the sum of the frame counts of its shots. */
  function TotalFrames(shots: seq<Shot>): nat {
    if shots == [] then 0 else FrameCount(shots[0]) + TotalFrames(shots[1..])
  }

  /** Sum of the panel's span lengths. */
  function SpanSum(shots: seq<Shot>): int {
    if shots == [] then 0 else SpanLength(shots[0]) + SpanSum(shots[1..])
  }

  lemma {:induction false} TotalFramesAppend(a: seq<Shot>, b: seq<Shot>)
    ensures TotalFrames(a + b) == TotalFrames(a) + TotalFrames(b)
  {
    if a == [] {
      assert a + b == b;
    } else {
      assert (a + b)[1..] == a[1..] + b;
      TotalFramesAppend(a[1..], b);
    }
  }

  /** For well-formed shots the panel's spans and the player's frame counts
      agree, so both index the same global frame space. */
  lemma {:induction false} SpanSumIsTotal(shots: seq<Shot>)
    requires forall k :: 0 <= k < |shots| ==> WellFormed(shots[k])
    ensures SpanSum(shots) == TotalFrames(shots)
  {
    if shots != [] {
      SpanSumIsTotal(shots[1..]);
    }
  }

  /** The shots of one department, in list order (gui.py:241, 300-302). */
  function InReparto(shots: seq<Shot>, reparto: string): (r: seq<Shot>)
    ensures |r| <= |shots|
    ensures forall k :: 0 <= k < |r| ==> r[k].reparto == reparto && r[k] in shots
    ensures forall s :: s in shots && s.reparto == reparto ==> s in r
  {
    if shots == [] then []
    else if shots[0].reparto == reparto then [shots[0]] + InReparto(shots[1..], reparto)
    else InReparto(shots[1..], reparto)
  }

  /** Filtering distributes over concatenation and keeps or drops each shot by
      its department alone, so it keeps the list order. */
  lemma {:induction false} InRepartoAppend(a: seq<Shot>, b: seq<Shot>, reparto: string)
    ensures InReparto(a + b, reparto) == InReparto(a, reparto) + InReparto(b, reparto)
  {
    if a == [] {
      assert a + b == b;
    } else {
      assert (a + b)[1..] == a[1..] + b;
      InRepartoAppend(a[1..], b, reparto);
    }
  }

  lemma InRepartoSingle(s: Shot, reparto: string)
    ensures InReparto([s], reparto) == if s.reparto == reparto then [s] else []
  {
    assert [s][1..] == [];
  }

  /** The global index the panel computes for the shot with id `id`
      (gui.py:254-258): the span lengths of the shots before the first one
      carrying that id, or of all shots when none does. */
  function GlobalIndexOf(shots: seq<Shot>, id: string): int {
    if shots == [] then 0
    else if shots[0].shotId == id then 0
    else SpanLength(shots[0]) + GlobalIndexOf(shots[1..], id)
  }

  /** The `absolute_start` of a shot: its global index within the
      department-filtered list (the source reads this attribute without ever
      assigning it; the model derives it the way gui.py:254-258 does). */
  function AbsoluteStart(loaded: seq<Shot>, reparto: string, s: Shot): int {
    GlobalIndexOf(InReparto(loaded, reparto), s.shotId)
  }

  /** Over well-formed shots the global index lies in the list's frame
      space, and strictly inside it when some shot carries the id. */
  lemma {:induction false} GlobalIndexInRange(shots: seq<Shot>, id: string)
    requires forall k :: 0 <= k < |shots| ==> WellFormed(shots[k])
    ensures 0 <= GlobalIndexOf(shots, id) <= SpanSum(shots)
    ensures (exists k :: 0 <= k < |shots| && shots[k].shotId == id) ==> GlobalIndexOf(shots, id) < SpanSum(shots)
  {
    SpanSumIsTotal(shots);
    if shots != [] && shots[0].shotId != id {
      GlobalIndexInRange(shots[1..], id);
      if exists k :: 0 <= k < |shots| && shots[k].shotId == id {
        var k :| 0 <= k < |shots| && shots[k].shotId == id;
        assert shots[1..][k - 1] == shots[k];
      }
    }
  }

  /** A loaded shot of the current department starts inside that
      department's episode. */
  lemma AbsoluteStartInEpisode(loaded: seq<Shot>, reparto: string, s: Shot)
    requires forall k :: 0 <= k < |loaded| ==> WellFormed(loaded[k])
    requires s in loaded && s.reparto == reparto
    ensures 0 <= AbsoluteStart(loaded, reparto, s) < TotalFrames(InReparto(loaded, reparto))
  {
    var shots := InReparto(loaded, reparto);
    assert s in shots;
    SpanSumIsTotal(shots);
    GlobalIndexInRange(shots, s.shotId);
  }

  predicate FirstWithId(shots: seq<Shot>, k: int) {
    0 <= k < |shots| && forall m :: 0 <= m < k ==> shots[m].shotId != shots[k].shotId
  }

  /** The global start of a shot is the sum of the lengths of the shots
      before it. */
  lemma {:induction false} GlobalIndexIsPrefixSum(shots: seq<Shot>, k: int)
    requires FirstWithId(shots, k)
    ensures GlobalIndexOf(shots, shots[k].shotId) == SpanSum(shots[..k])
  {
    if k > 0 {
      assert shots[0].shotId != shots[k].shotId;
      var tail := shots[1..];
      assert tail[k - 1] == shots[k];
      assert FirstWithId(tail, k - 1) by {
        forall m | 0 <= m < k - 1
          ensures tail[m].shotId != tail[k - 1].shotId
        {
          assert tail[m] == shots[m + 1];
        }
      }
      GlobalIndexIsPrefixSum(tail, k - 1);
      assert shots[..k][1..] == tail[..k - 1];
    }
  }

  /** An id that no shot carries runs the panel's loop to its end. */
  lemma {:induction false} GlobalIndexOfMissing(shots: seq<Shot>, id: string)
    requires forall m :: 0 <= m < |shots| ==> shots[m].shotId != id
    ensures GlobalIndexOf(shots, id) == SpanSum(shots)
  {
    if shots != [] {
      GlobalIndexOfMissing(shots[1..], id);
    }
  }

  /** The two-shot list of the test data: `s1` with frames 1-3 starts at 0,
      `s2` with frames 1-2 starts at 3, and the playlist has 5 frames. */
  lemma SampleAbsoluteStarts()
    ensures var s1 := Shot("s1", "animazione", "a/s1.####.png", 1, 3);
            var s2 := Shot("s2", "animazione", "a/s2.####.png", 1, 2);
            AbsoluteStart([s1, s2], "animazione", s1) == 0
            && AbsoluteStart([s1, s2], "animazione", s2) == 3
            && TotalFrames([s1, s2]) == 5
  {
    var s1 := Shot("s1", "animazione", "a/s1.####.png", 1, 3);
    var s2 := Shot("s2", "animazione", "a/s2.####.png", 1, 2);
    assert [s1, s2][1..] == [s2];
    assert [s2][1..] == [];
    assert InReparto([s1, s2], "animazione") == [s1, s2];
    assert "s1" != "s2";
  }
}

=== FILE: template.dfy ===
/** Python's `str.replace(old, new)`, used to put a frame number into a
    path template, and the split/join reference that describes it. */
module Template {

  /** `s.replace(pat, rep)`: every occurrence of `pat`, found left to right
      without overlap, is replaced by `rep`. */
  function Replace(s: string, pat: string, rep: string): (r: string)
    requires |pat| > 0
    // a replacement as long as the pattern keeps the length
    ensures |pat| == |rep| ==> |r| == |s|
  {
    if s == [] then []
    else if pat <= s then rep + Replace(s[|pat|..], pat, rep)
    else [s[0]] + Replace(s[1..], pat, rep)
  }

  /** `s.split(pat)`: the pieces between the occurrences Replace finds. */
  function Split(s: string, pat: string): (parts: seq<string>)
    requires |pat| > 0
    ensures |parts| >= 1
  {
    if s == [] then [[]]
    else if pat <= s then [[]] + Split(s[|pat|..], pat)
    else var rest := Split(s[1..], pat); [[s[0]] + rest[0]] + rest[1..]
  }

  /** `sep.join(parts)`. */
  function Join(parts: seq<string>, sep: string): string
    requires |parts| >= 1
  {
    if |parts| == 1 then parts[0] else parts[0] + sep + Join(parts[1..], sep)
  }

  /** `pat` occurs in `t` starting at position `k`. */
  predicate OccursAt(t: string, pat: string, k: int) {
    0 <= k && k + |pat| <= |t| && t[k..k + |pat|] == pat
  }

  /** `t` contains `pat` nowhere. */
  predicate Free(t: string, pat: string) {
    forall k :: 0 <= k <= |t| ==> !OccursAt(t, pat, k)
  }

  lemma JoinCons(h: string, rest: seq<string>, sep: string)
    requires |rest| >= 1
    ensures Join([h] + rest, sep) == h + sep + Join(rest, sep)
  {
    assert ([h] + rest)[1..] == rest;
  }

  lemma JoinExtendHead(c: char, rest: seq<string>, sep: string)
    requires |rest| >= 1
    ensures Join([[c] + rest[0]] + rest[1..], sep) == [c] + Join(rest, sep)
  {
    if |rest| > 1 {
      JoinCons([c] + rest[0], rest[1..], sep);
      JoinCons(rest[0], rest[1..], sep);
      assert [rest[0]] + rest[1..] == rest;
    } else {
      assert [[c] + rest[0]] + rest[1..] == [[c] + rest[0]];
    }
  }

  /** Replacing is joining the split pieces with the replacement, which is
      how Python documents `str.replace`. */
  lemma {:induction false} ReplaceIsJoinOfSplit(s: string, pat: string, rep: string)
    requires |pat| > 0
    ensures Replace(s, pat, rep) == Join(Split(s, pat), rep)
  {
    if s == [] {
    } else if pat <= s {
      var tail := s[|pat|..];
      ReplaceIsJoinOfSplit(tail, pat, rep);
      assert Split(s, pat) == [[]] + Split(tail, pat);
      JoinCons([], Split(tail, pat), rep);
      assert Replace(s, pat, rep) == rep + Replace(tail, pat, rep);
    } else {
      var rest := Split(s[1..], pat);
      ReplaceIsJoinOfSplit(s[1..], pat, rep);
      assert Split(s, pat) == [[s[0]] + rest[0]] + rest[1..];
      JoinExtendHead(s[0], rest, rep);
      assert Replace(s, pat, rep) == [s[0]] + Replace(s[1..], pat, rep);
    }
  }

  /** Joining the pieces with the pattern itself gives back the input. */
  lemma {:induction false} JoinSplitRoundTrip(s: string, pat: string)
    requires |pat| > 0
    ensures Join(Split(s, pat), pat) == s
  {
    if s == [] {
    } else if pat <= s {
      var tail := s[|pat|..];
      JoinSplitRoundTrip(tail, pat);
      assert Split(s, pat) == [[]] + Split(tail, pat);
      JoinCons([], Split(tail, pat), pat);
      assert s == pat + tail;
    } else {
      var rest := Split(s[1..], pat);
      JoinSplitRoundTrip(s[1..], pat);
      assert Split(s, pat) == [[s[0]] + rest[0]] + rest[1..];
      JoinExtendHead(s[0], rest, pat);
      assert s == [s[0]] + s[1..];
    }
  }

  /** The first piece is the text before the first occurrence. */
  lemma {:induction false} SplitHeadIsPrefix(s: string, pat: string)
    requires |pat| > 0
    ensures Split(s, pat)[0] <= s
  {
    if s != [] && !(pat <= s) {
      SplitHeadIsPrefix(s[1..], pat);
    }
  }

  /** Putting a character in front of a pattern-free text leaves it free
      unless the pattern now starts at the front. */
  lemma FreeCons(c: char, t: string, pat: string)
    requires |pat| > 0 && Free(t, pat) && !OccursAt([c] + t, pat, 0)
    ensures Free([c] + t, pat)
  {
    var h := [c] + t;
    forall k | 1 <= k <= |h|
      ensures !OccursAt(h, pat, k)
    {
      assert !OccursAt(t, pat, k - 1);
      if k + |pat| <= |h| {
        assert h[k..k + |pat|] == t[k - 1..k - 1 + |pat|];
      }
    }
  }

  /** No piece of the split contains the pattern: every occurrence was cut. */
  lemma {:induction false} SplitPiecesFree(s: string, pat: string)
    requires |pat| > 0
    ensures forall k :: 0 <= k < |Split(s, pat)| ==> Free(Split(s, pat)[k], pat)
  {
    if s == [] {
    } else if pat <= s {
      SplitPiecesFree(s[|pat|..], pat);
      var parts := Split(s, pat);
      forall k | 0 <= k < |parts|
        ensures Free(parts[k], pat)
      {
        if k > 0 {
          assert parts[k] == Split(s[|pat|..], pat)[k - 1];
        }
      }
    } else {
      SplitPiecesFree(s[1..], pat);
      SplitHeadIsPrefix(s[1..], pat);
      var rest := Split(s[1..], pat);
      var parts := Split(s, pat);
      var h := [s[0]] + rest[0];
      assert h <= s;
      if |pat| <= |h| {
        assert h[0..|pat|] == s[..|pat|];
      }
      FreeCons(s[0], rest[0], pat);
      forall k | 0 <= k < |parts|
        ensures Free(parts[k], pat)
      {
        if k > 0 {
          assert parts[k] == rest[k];
        }
      }
    }
  }

  /** Text without the pattern's first character is copied unchanged and
      cannot take part in a match. */
  lemma {:induction false} ReplaceSkipsPlainText(a: string, t: string, pat: string, rep: string)
    requires |pat| > 0
    requires forall k :: 0 <= k < |a| ==> a[k] != pat[0]
    ensures Replace(a + t, pat, rep) == a + Replace(t, pat, rep)
  {
    if a != [] {
      var at := a + t;
      assert at != [] && at[0] == a[0];
      assert !(pat <= at);
      assert at[1..] == a[1..] + t;
      ReplaceSkipsPlainText(a[1..], t, pat, rep);
      assert Replace(at, pat, rep) == [a[0]] + (a[1..] + Replace(t, pat, rep));
      assert a == [a[0]] + a[1..];
    } else {
      assert a + t == t;
    }
  }

  /** A template of the form `a + pat + b`, where neither `a` nor `b` uses
      the pattern's character, becomes `a + rep + b`. */
  lemma SinglePlaceholder(a: string, b: string, pat: string, rep: string)
    requires |pat| > 0
    requires forall k :: 0 <= k < |a| ==> a[k] != pat[0]
    requires forall k :: 0 <= k < |b| ==> b[k] != pat[0]
    ensures Replace(a + pat + b, pat, rep) == a + rep + b
  {
    assert a + pat + b == a + (pat + b);
    ReplaceSkipsPlainText(a, pat + b, pat, rep);
    assert (pat + b)[|pat|..] == b;
    ReplaceSkipsPlainText(b, [], pat, rep);
    assert b + [] == b;
  }

  /** A template without the pattern is left as it is. */
  lemma NoPlaceholder(s: string, pat: string, rep: string)
    requires |pat| > 0
    requires forall k :: 0 <= k < |s| ==> s[k] != pat[0]
    ensures Replace(s, pat, rep) == s
  {
    ReplaceSkipsPlainText(s, [], pat, rep);
    assert s + [] == s;
  }
}

=== FILE: wrappers.dfy ===
/** Optional values and results shared by the other modules. */
module Wrappers {

  /** A value that may be absent (Python's `None`). */
  datatype Option<+T> = None | Some(value: T)

  /** Either a value or the reason an operation refused to produce one. */
  datatype Result<+R, +E> = Success(value: R) | Failure(error: E)
}
